=== FILE: README.md ===
# Japanese vocabulary tools of an Anki MCP server, in Dafny

This project models the Japanese-vocabulary core of an MCP server that drives
an Anki collection:

- **Furigana** (`JapaneseUtils`). `is_kanji` and `is_kana` are code-point
  ranges. `add_furigana` cuts the reading into segments: every kana is a
  segment of its own, and each maximal run of other characters is one
  segment. It then walks the expression with a cursor into those segments:
  - a kanji takes the segment under the cursor as its gloss, `食[た]`, and
    moves the cursor on;
  - any other character is copied, and moves the cursor on only when it
    equals the segment under it;
  - an expression without kanji is replaced by its reading.
- **CSV rows** (`VocabCsv`). For each row, `read_vocab_csv`:
  - strips the `Expression`, `Meaning` and `Reading` cells; a missing column
    reads as empty;
  - annotates the reading with furigana;
  - tags the note with the `;`-separated, stripped pieces of the `Tags` cell,
    followed by the extra tags.
- **Import** (`Importer`, over the collection of `Anki`). `import_japanese_vocab`:
  - reports a missing deck, then a missing `Japanese (recognition)` note
    type, before it reads anything;
  - indexes the deck's notes by their first field; when several cards carry
    the same key, the last card wins;
  - handles each row in turn: an update when its expression is indexed,
    otherwise an add, or a skip when the collection refuses the new note;
  - counts added, updated and skipped rows;
  - never extends the index with the notes it adds.
- **Sample sentences** (`SentenceMerge`). `update_notes_with_sentences`:
  - checks the note type before the deck;
  - appends to the reading of every found note whose first field is the
    vocabulary item the sentences the reading does not already contain,
    after a blank line and joined by `<br>- `;
  - leaves the note alone when no sentence is new;
  - reports the items no note was found for.
- **Reviews** (`Review`). `review_card` refuses an ease outside 1..4 before
  touching the collection.

`PyStr` gives Python's `isspace`, `strip`, `split`, `join` and substring `in`
on Dafny strings. `Wrappers` holds `Option` and `Result`. The collection is
immutable data:
- decks map to the note ids of their cards, in card order;
- note types are a set of names;
- notes map ids to fields and tags;
- new notes take the next free id.

Everything the server does through the collection, the file system or the
search engine becomes a parameter:
- the parsed CSV rows, or `None` when the file cannot be read;
- the set of row positions whose new note the collection refuses;
- the notes the search finds for each vocabulary item;
- the set of card ids of the collection.

The source gives 食べ物 read たべもの as `食[た]べ物[も]`: each kanji takes
exactly one kana segment, and the trailing の is dropped. The model follows
the code (`JapaneseUtils.ExampleTabemono`). A reading of `食[た]べ物[もの]` for
this word would be what a reader expects, but it is not what the code computes.

## Model

| member | source | states |
|---|---|---|
| JapaneseUtils.IsKanji | src/japanese_utils.py:11-18 | a character in the kanji range U+4E00..U+9FFF is never kana (U+3040..U+30FF), so each character of a reading is treated one way only |
| JapaneseUtils.IsKana | src/japanese_utils.py:15-18 | the hiragana and katakana ranges are adjacent: a character is kana exactly when it lies in U+3040..U+30FF |
| JapaneseUtils.Segments | src/japanese_utils.py:34-47 | the reading is cut into at most as many segments as it has characters |
| JapaneseUtils.SegmentsSound | src/japanese_utils.py:34-47 | every segment is a single kana or a non-empty run of non-kana, no two runs are adjacent, and the segments concatenate back to the reading |
| JapaneseUtils.SegmentsUnique | src/japanese_utils.py:34-47 | any well-formed cut that concatenates to the reading is the segmentation: kana stand alone and runs are maximal, nothing else |
| JapaneseUtils.SplitReading | src/japanese_utils.py:34-47 | the loop that flushes the pending run before each kana and at the end computes exactly the segmentation |
| JapaneseUtils.AnyKanji | src/japanese_utils.py:28 | the scan is true exactly when some character of the expression is a kanji |
| JapaneseUtils.AddFurigana | src/japanese_utils.py:20-63 | without a kanji the result is the reading itself; otherwise it is the rendering of one piece per expression character, whose bases spell the expression and where only kanji carry a bracketed gloss |
| JapaneseUtils.NoKanjiKeepsReading | src/japanese_utils.py:28-29 | an expression with no kanji yields its reading unchanged, whatever the reading |
| JapaneseUtils.Step | src/japanese_utils.py:52-61 | one character gives one piece for itself; it is glossed exactly when it is a kanji and segments remain, then with the segment under the cursor; the cursor moves past a glossed kanji or a character equal to its segment, and otherwise stays |
| JapaneseUtils.Walk | src/japanese_utils.py:49-61 | the walk over the expression emits one piece per character and leaves the cursor within the segments |
| JapaneseUtils.WalkShape | src/japanese_utils.py:51-61 | the walk emits one piece per expression character, for that character, and only kanji ever get a gloss |
| JapaneseUtils.AnnotationStripsToExpression | src/japanese_utils.py:49-63 | removing the bracketed glosses from the annotation gives the expression back |
| JapaneseUtils.PieceAt | src/japanese_utils.py:51-61 | the piece for character i is decided by that character and the cursor before it, and the cursor after it is the one that step leaves |
| JapaneseUtils.CursorMonotone | src/japanese_utils.py:50-61 | the segment cursor never moves backwards and never passes the number of segments |
| JapaneseUtils.KanjiGlossedIffSegmentsRemain | src/japanese_utils.py:52-57 | a kanji is glossed exactly when segments remain, and then with the segment under the cursor |
| JapaneseUtils.BareKanjiStaysBare | src/japanese_utils.py:52-57 | once a kanji is left bare for want of segments, every later kanji is bare too |
| JapaneseUtils.GlossesInOrder | src/japanese_utils.py:52-55 | glosses consume segments strictly left to right: no segment glosses two kanji |
| JapaneseUtils.AllKanjiGlossedInTurn | src/japanese_utils.py:50-57 | in an all-kanji expression the i-th kanji is glossed with the i-th segment while segments last, and bare afterwards |
| JapaneseUtils.WalkTurn | src/japanese_utils.py:52-61 | the loop body's three branches append exactly the text of one walk step and advance the cursor by at most one |
| JapaneseUtils.WalkLoop | src/japanese_utils.py:49-63 | the annotation loop with its running cursor produces the text of the whole walk |
| JapaneseUtils.AddFuriganaLoop | src/japanese_utils.py:20-63 | the function as written, with its loops, computes `AddFurigana` |
| JapaneseUtils.ExampleTaberu | src/japanese_utils.py:23-26 | the documented example: 食べる read たべる gives 食[た]べる |
| JapaneseUtils.ExampleTabemono | src/japanese_utils.py:49-61 | 食べ物 read たべもの gives 食[た]べ物[も]: one segment per kanji, the trailing の dropped |
| PyStr.StripIsTrimmed | src/japanese_utils.py:83-84 | what `.strip()` returns has no white space at either end |
| PyStr.StripDecomposes | src/japanese_utils.py:83-84 | `.strip()` only removes white space: the input is the result with white space before and after it |
| PyStr.StripUnwraps | src/japanese_utils.py:83-84 | stripping white space wrapped around a trimmed string gives that string, so the decomposition is unique |
| PyStr.StripIdempotent | src/japanese_utils.py:83-84 | stripping twice is stripping once |
| PyStr.JoinSplit | src/japanese_utils.py:100 | joining the pieces of a split with the separator gives the string back |
| PyStr.SplitJoin | src/japanese_utils.py:100 | splitting a join of separator-free pieces gives the pieces back |
| PyStr.SplitPiecesOmitSep | src/server.py:188 | no piece of a split contains the separator |
| PyStr.JoinContainsPieces | src/server.py:478 | every joined sentence occurs in the joined text |
| VocabCsv.CsvTags | src/japanese_utils.py:98-100 | the `Tags` cell contributes no tag exactly when it is blank after stripping |
| VocabCsv.CsvTagsClean | src/japanese_utils.py:98-100 | a non-blank `Tags` cell gives one tag per `;`-separated piece, each trimmed and free of `;` |
| VocabCsv.CsvTagsRoundTrip | src/japanese_utils.py:98-100 | trimmed, `;`-free tags written as a `;`-joined cell read back as the same tags |
| VocabCsv.BuildEntry | src/japanese_utils.py:83-108 | a row gives three fields, its key is the stripped `Expression` cell, and its tags are the cell's tags followed by the extra tags |
| VocabCsv.BuildEntryFields | src/japanese_utils.py:83-94 | the fields are the stripped expression, the stripped meaning, and the furigana of the stripped reading over the stripped expression |
| VocabCsv.BuildEntryTags | src/japanese_utils.py:96-102 | the extra tags follow the row's own tags unchanged and in order; a blank `Tags` cell leaves only the extra tags |
| VocabCsv.Cell | src/japanese_utils.py:83-84 | a missing column reads as the empty string, a present one as its cell |
| VocabCsv.ProcessRow | src/japanese_utils.py:83-108 | a row gives three fields with the stripped `Expression` cell as first field and key, and the `Tags` cell's tags followed by the extra tags |
| VocabCsv.ReadVocab | src/japanese_utils.py:76-111 | one entry per row, in row order, each the processed row |
| VocabCsv.ExampleTags | src/japanese_utils.py:96-102 | the cell `jlpt;n3` with the extra tag `batch1` tags the note jlpt, n3, batch1 |
| VocabCsv.EmptyRow | src/japanese_utils.py:83-98 | a row with no columns gives three empty fields, an empty key and only the extra tags |
| Importer.ExtraTags | src/server.py:185-188 | no extra tags exactly when `tags` is absent or empty |
| Importer.ExtraTagsClean | src/server.py:186-188 | a non-empty `tags` gives one tag per comma-separated piece, each trimmed and comma-free |
| Importer.ExtraTagsRoundTrip | src/server.py:186-188 | trimmed, comma-free tags written comma-separated come back unchanged |
| Importer.BuildIndex | src/server.py:190-195 | every note the index names is behind a card of the deck |
| Importer.IndexDomain | src/server.py:190-195 | a key is in the deck's index exactly when some card's note has it as first field |
| Importer.IndexLastWins | src/server.py:190-195 | the index keeps, for each key, the note of the last card carrying it |
| Importer.IndexIsKeyed | src/server.py:190-195 | every indexed note belongs to the deck and has its key as first field |
| Importer.OutcomeOf | src/server.py:204-222 | a row is an update exactly when its expression is indexed, and a skip exactly when it is not indexed and its add fails |
| Importer.ApplyEntry | src/server.py:204-222 | one row pass (with the update stored, see Findings) moves exactly the counter of the row's outcome: an update stores the row's note under the indexed id, a skip leaves the collection as it was, and an add stores the row's note under the next free id and files it at the end of the deck; note types never change |
| Importer.Reconcile | src/server.py:204-222 | the row loop keeps the deck and the note types, and the counters together grow by the number of rows |
| Importer.ReconcileTally | src/server.py:204-222 | each counter grows by the number of rows with that outcome: update when indexed, skip when the add fails, add otherwise |
| Importer.ReconcileShape | src/server.py:212-219 | new notes take consecutive ids from the next free one and are filed, in row order, at the end of the target deck; no other deck and no note type changes |
| Importer.ReconcileNewNotes | src/server.py:213-219 | the j-th new note carries the fields and tags of the j-th added row |
| Importer.ReconcileUpdates | src/server.py:206-211 | the corrected update (see Findings): an indexed note ends up with the fields and tags of the last row with its key, and is untouched when no row has it |
| Importer.ReconcileKeeps | src/server.py:204-222 | a note no index entry points at keeps its content |
| Importer.ReconcileValid | src/server.py:204-222 | the import keeps every card pointing at a note with a first field and loses no note |
| Importer.ImportVocab | src/server.py:174-229 | the import succeeds exactly when the deck and the note type exist and the file can be read, and then leaves a consistent collection with the same note types |
| Importer.ImportChecksFirst | src/server.py:174-183 | a missing deck is reported before a missing note type, and both regardless of the file, the tags and which adds would fail |
| Importer.ImportCounts | src/server.py:197-229 | the reported counters are the numbers of rows with each outcome, and they add up to the number of rows |
| Importer.KnownExpressionStays | src/server.py:206-211 | a row whose expression the deck had is still indexed under it afterwards, whichever adds fail |
| Importer.NewExpressionFiled | src/server.py:212-219 | a row whose expression the deck lacked and whose add succeeds is indexed under it afterwards, through its new card, whichever other adds fail |
| Importer.ReimportUpdatesEveryRow | src/server.py:190-222 | importing the same file again after an import without failed adds updates every row and adds and skips none |
| Importer.DuplicateNewRowsBothAdded | src/server.py:204-219 | the index is not extended by new notes: two rows with the same new expression both become notes with consecutive ids |
| Importer.ApplyEntryAsWritten | src/server.py:206-211 | the row pass with the update branch as written keeps the target deck |
| Importer.UpdateLostAsWritten | src/server.py:206-211 | as written, an update is counted while the stored note keeps its old content; the corrected pass stores the row's note |
| SentenceMerge.NewSentences | src/server.py:471-474 | a sentence is kept exactly when it is one of the item's sentences and not a substring of the current reading |
| SentenceMerge.NewSentencesSingle | src/server.py:472-474 | a single sentence is kept exactly when the reading does not contain it |
| SentenceMerge.NewSentencesAppend | src/server.py:471-474 | the filter keeps order and repetition: the sentences kept from a concatenation are those kept from each part, in sequence |
| SentenceMerge.MergeReading | src/server.py:468-485 | the reading is left alone exactly when every sentence is already in it; otherwise the new reading starts with the old one and a blank line |
| SentenceMerge.MergeContainsAll | src/server.py:471-479 | after appending, the reading contains every one of the item's sentences |
| SentenceMerge.MergeIdempotent | src/server.py:471-485 | appending the same sentences a second time finds nothing new |
| SentenceMerge.EmptySentenceNeverKept | src/server.py:473 | an empty sentence is in every reading and so is never appended |
| SentenceMerge.VisitNote | src/server.py:459-485 | visiting a found note changes readings only (over the whole note map; the single-note claim is `VisitLeavesOthers`); the notes change exactly when the note's first field is the item and its reading lacks a sentence, and then the update count goes up by one and the item is marked updated, otherwise count and mark stay |
| SentenceMerge.UpdateVocab | src/server.py:459-485 | the pass over an item's found notes changes only readings and never lowers the update count |
| SentenceMerge.VisitLeavesOthers | src/server.py:465 | a note whose first field is not the item is not changed by the visit |
| SentenceMerge.UpdateVocabLeavesOthers | src/server.py:459-465 | a note not found for the item, or whose first field is not the item, is left as it was |
| SentenceMerge.UpdateVocabTouched | src/server.py:458-487 | an item is reported as updated exactly when the pass raised the update count, and exactly when it changed the notes |
| SentenceMerge.UpdateVocabCount | src/server.py:459-482 | the pass raises the update count by the number of distinct found notes whose first field is the item and whose reading lacked a sentence |
| SentenceMerge.UpdateVocabChanges | src/server.py:465-482 | the pass changes the notes exactly when some found note of the item lacked a sentence |
| SentenceMerge.VisitFills | src/server.py:465-483 | after visiting a matching note its reading contains every sentence |
| SentenceMerge.UpdateVocabFills | src/server.py:459-483 | after the pass every found note whose first field is the item contains all of the item's sentences |
| SentenceMerge.UpdateVocabStable | src/server.py:476-485 | when every matching note already contains every sentence the pass changes nothing |
| SentenceMerge.UpdateAll | src/server.py:443-488 | the run changes only readings, and every item is reported either as not found or with a result |
| SentenceMerge.NotFoundExactly | src/server.py:443-456 | an item is reported as not found exactly when the search for it finds no note |
| SentenceMerge.LastReport | src/server.py:453-488 | an item the search finds nothing for leaves notes, count and results alone; otherwise the count grows by its notes that lacked a sentence and one result is appended, marked updated exactly when its pass changed a note |
| SentenceMerge.ResultOfItem | src/server.py:443-488 | every found item has its result at the position after the results of the items before it, naming the item and marked updated exactly when that item's pass changed a note |
| SentenceMerge.UpdateAllLeavesOthers | src/server.py:443-485 | a note whose first field is none of the items is left as it was |
| SentenceMerge.UpdateAllFills | src/server.py:443-488 | after a run every matching found note contains all of its item's sentences |
| SentenceMerge.UpdateAllStable | src/server.py:443-488 | when every item is already filled the run changes no note and reports no update |
| SentenceMerge.UpdateNotesWithSentences | src/server.py:405-500 | the update succeeds exactly when the note type and the deck exist, and then changes only readings |
| SentenceMerge.UpdateNotesInDefaultDeck | src/server.py:406 | without a deck name the tool searches "Try! N3 Vocab": it succeeds exactly when the note type and that deck exist, and reports that deck missing otherwise |
| SentenceMerge.NoteTypeCheckedFirst | src/server.py:423-435 | a missing note type is reported whatever the deck |
| SentenceMerge.UpdateTwiceChangesNothing | src/server.py:405-491 | running the update a second time with the same items changes no note and reports no update |
| Review.ReviewCard | src/server.py:261-273 | a review reaches the scheduler exactly when the ease is 1..4 and the card exists, and then appends exactly that answer |
| Review.ReviewAll | src/server.py:261-273 | a sequence of reviews only appends to the answer log, at most one answer per request |
| Review.EaseCheckedFirst | src/server.py:264-266 | an ease outside 1..4 is refused whatever the card and the collection |
| Review.ReviewAllValid | src/server.py:261-273 | every answer that reaches the scheduler has an ease in 1..4 and an existing card, and earlier answers are kept |

## Left out

- Reading the CSV file is not modelled. The rows arrive already parsed, as column-to-cell maps. A file that cannot be opened or parsed is `source == None` and gives `SourceUnreadable`; the source re-raises the exception instead.
- A short CSV row, whose missing cells Python's `DictReader` fills with `None` (so `.strip()` raises), is not modelled. A missing column reads as the empty string, as `row.get(name, '')` gives for an absent key.
- Opening, saving and closing the collection, logging, and the text of the result messages are left out. The counters, the not-found list and the per-item results are returned as data.
- Importer.ImportVocab: the whole-import model stores every update (the corrected behaviour of the Findings row), where the code as written counts the update but never writes the note back; `ApplyEntryAsWritten` models the as-written pass.
- Whether `add_note` fails is an input: the set `rejected` of row positions whose new note the collection refuses.
- The search `find_notes` is an input: the notes found for each vocabulary item (`hits`). Anki's search syntax and its matching are not modelled.
- SentenceMerge.UpdateAll: requires every found note to have a reading field. The search is restricted to the `Japanese (recognition)` note type, whose notes have one; a note without it would make the source raise an `IndexError`, and that path is not modelled.
- Deck-name lookup is exact membership in the collection's map of decks. Anki's own name normalisation is not modelled.
- The scheduler is an append-only log of answers; intervals, timers and the review history are not modelled. A card id the collection does not hold gives `CardNotFound`, where the source lets `get_card` raise.
- The dictionary of vocabulary items is a sequence of (item, sentences) pairs in the dictionary's order. Only `UpdateAllFills` and `UpdateTwiceChangesNothing` need the items to be distinct, as dictionary keys are.
- SentenceMerge.MergeReading: the contract fixes when the reading changes, the unchanged prefix and, through `MergeContainsAll`, the contents. The exact `<br>- ` layout of the appended text is stated only by its definition.
- Errors the source reports by raising (an ease outside 1..4, an unknown card, an unreadable file) are `Failure` values; the text of the exceptions and of the error strings is not modelled.
- Strings are sequences of Unicode scalar values. Python strings holding lone surrogates are not modelled.
- The other tools of the server (adding a basic card, card and deck history, listing decks) are outside this model.

## Findings

| source | as written | input that shows it | evidently intended | confidence | as-written member | corrected member |
|---|---|---|---|---|---|---|
| src/server.py:206-211 | the update branch assigns `note.fields` and `note.tags` to a note object but never writes the note back (no `col.update_note(note)` or `note.flush()`), so `col.save()` stores nothing for it | a deck holding a note with expression 食べる and meaning "eat", and a CSV row 食べる with meaning "to eat": the import reports one update, and the stored note keeps "eat" | the stored note takes the row's fields and tags, as the counter and the comment "Update existing note" say; the sentence tool in the same file calls `note.flush()` after changing a note (src/server.py:480) | medium, not executed; depends on Anki's note objects being detached copies | Importer.ApplyEntryAsWritten, Importer.UpdateLostAsWritten | Importer.ApplyEntry, Importer.ReconcileUpdates |

=== FILE: anki.dfy ===
/**
 * The part of an Anki collection that the vocabulary tools read and write:
 * named decks, each listing the note behind every one of its cards in card
 * order; the note types by name; and the notes, each a list of fields and a
 * list of tags. New notes get the next free id.
 */
module Anki {
  type NoteId = nat

  datatype Note = Note(fields: seq<string>, tags: seq<string>)

  datatype Collection = Collection(
    decks: map<string, seq<NoteId>>,
    noteTypes: set<string>,
    notes: map<NoteId, Note>,
    nextId: NoteId)

  /** The note type every vocabulary note uses. */
  const JapaneseNoteType := "Japanese (recognition)"

  /** A note as the tools see it: it has a first field, the expression. */
  predicate HasKey(n: Note)
  {
    n.fields != []
  }

  /** The first field of a note, the key the importer reconciles on. */
  function Key(n: Note): string
    requires HasKey(n)
  {
    n.fields[0]
  }

  /** Every card of a deck leads to a note with a first field. */
  predicate CardsKeyed(notes: map<NoteId, Note>, cards: seq<NoteId>)
  {
    forall i :: 0 <= i < |cards| ==> cards[i] in notes && HasKey(notes[cards[i]])
  }

  /** A note id below the next free one. */
  predicate Issued(col: Collection, id: NoteId)
  {
    id < col.nextId
  }

  /**
   * The integrity of a collection: every card of every deck leads to a note,
   * every note has a first field, and every id in use is below the next free one.
   */
  predicate Valid(col: Collection)
  {
    (forall d :: d in col.decks ==> CardsKeyed(col.notes, col.decks[d]))
    && (forall id :: id in col.notes ==> Issued(col, id) && HasKey(col.notes[id]))
  }
}

=== FILE: importer.dfy ===
/**
 * `import_japanese_vocab`: reconcile the rows of a vocabulary file with the
 * notes already in a deck. The deck is indexed by the first field of each of
 * its cards' notes; a row whose expression is indexed overwrites that note,
 * any other row becomes a new note filed under the deck, and a row whose new
 * note the collection refuses is counted as skipped.
 */
module Importer {
  import opened Wrappers
  import opened PyStr
  import opened VocabCsv
  import opened Anki

  datatype ImportError = DeckNotFound(deck: string) | NoteTypeNotFound | SourceUnreadable

  /** The three counters the import reports. */
  datatype Tally = Tally(added: nat, updated: nat, skipped: nat)

  /** The collection and the counters as the import goes along. */
  datatype Run = Run(col: Collection, tally: Tally)

  // ---------------------------------------------------------------------
  // Extra tags

  /**
   * The `tags` argument: absent or empty gives no extra tags, anything else
   * gives its comma-separated pieces, each stripped (possibly empty).
   */
  function ExtraTags(tags: Option<string>): (r: seq<string>)
    ensures r == [] <==> tags.None? || tags.value == ""
  {
    if tags.None? || tags.value == "" then [] else StripEach(Split(tags.value, ','))
  }

  /** There is one extra tag per comma-separated piece, trimmed and free of commas. */
  lemma ExtraTagsClean(tags: string)
    requires tags != ""
    ensures |ExtraTags(Some(tags))| == |Split(tags, ',')|
    ensures forall i :: 0 <= i < |ExtraTags(Some(tags))| ==>
              Trimmed(ExtraTags(Some(tags))[i]) && ',' !in ExtraTags(Some(tags))[i]
  {
    var pieces := Split(tags, ',');
    SplitPiecesOmitSep(tags, ',');
    forall i | 0 <= i < |pieces| ensures Trimmed(Strip(pieces[i])) && ',' !in Strip(pieces[i]) {
      StripIsTrimmed(pieces[i]);
      StripKeepsOut(pieces[i], ',');
    }
  }

  /** Trimmed, comma-free tags written as a comma-separated argument come back unchanged. */
  lemma ExtraTagsRoundTrip(ts: seq<string>)
    requires |ts| >= 1
    requires forall i :: 0 <= i < |ts| ==> Trimmed(ts[i]) && ',' !in ts[i]
    requires Join(",", ts) != ""
    ensures ExtraTags(Some(Join(",", ts))) == ts
  {
    StripEachSplitJoin(ts, ',');
  }

  // ---------------------------------------------------------------------
  // The deck index

  /** The first field of the note behind card `i`. */
  function CardKey(notes: map<NoteId, Note>, cards: seq<NoteId>, i: nat): string
    requires CardsKeyed(notes, cards) && i < |cards|
  {
    Key(notes[cards[i]])
  }

  /** No card after position `i` carries the key `k`. */
  predicate LaterCardsDiffer(notes: map<NoteId, Note>, cards: seq<NoteId>, i: nat, k: string)
    requires CardsKeyed(notes, cards)
  {
    forall j :: i < j < |cards| ==> CardKey(notes, cards, j) != k
  }

  /** The cards of a deck, walked in order, each filing its note under the note's first field. */
  function BuildIndex(notes: map<NoteId, Note>, cards: seq<NoteId>): (index: map<string, NoteId>)
    requires CardsKeyed(notes, cards)
    ensures forall k :: k in index ==> index[k] in cards
    decreases |cards|
  {
    if cards == [] then map[]
    else
      var n := |cards| - 1;
      BuildIndex(notes, cards[..n])[Key(notes[cards[n]]) := cards[n]]
  }

  lemma PrefixKeyed(notes: map<NoteId, Note>, cards: seq<NoteId>, n: nat)
    requires CardsKeyed(notes, cards) && n <= |cards|
    ensures CardsKeyed(notes, cards[..n])
  {
    forall i | 0 <= i < n ensures cards[..n][i] in notes && HasKey(notes[cards[..n][i]]) {
      assert cards[..n][i] == cards[i];
    }
  }

  lemma PrefixCardKey(notes: map<NoteId, Note>, cards: seq<NoteId>, n: nat, i: nat)
    requires CardsKeyed(notes, cards) && i < n <= |cards|
    ensures CardsKeyed(notes, cards[..n])
    ensures CardKey(notes, cards[..n], i) == CardKey(notes, cards, i)
  {
    PrefixKeyed(notes, cards, n);
    assert cards[..n][i] == cards[i];
  }

  /** A key is indexed exactly when some card of the deck carries it. */
  lemma {:induction false} IndexDomain(notes: map<NoteId, Note>, cards: seq<NoteId>, k: string)
    requires CardsKeyed(notes, cards)
    ensures k in BuildIndex(notes, cards) <==> exists i :: 0 <= i < |cards| && CardKey(notes, cards, i) == k
    decreases |cards|
  {
    if cards != [] {
      var n := |cards| - 1;
      PrefixKeyed(notes, cards, n);
      IndexDomain(notes, cards[..n], k);
      assert BuildIndex(notes, cards) == BuildIndex(notes, cards[..n])[CardKey(notes, cards, n) := cards[n]];
      if k in BuildIndex(notes, cards[..n]) {
        var i :| 0 <= i < n && CardKey(notes, cards[..n], i) == k;
        PrefixCardKey(notes, cards, n, i);
      }
      if exists i :: 0 <= i < |cards| && CardKey(notes, cards, i) == k {
        var i :| 0 <= i < |cards| && CardKey(notes, cards, i) == k;
        if i < n {
          PrefixCardKey(notes, cards, n, i);
        }
      }
    }
  }

  /** When several cards carry the same key, the index keeps the note of the last of them. */
  lemma {:induction false} IndexLastWins(notes: map<NoteId, Note>, cards: seq<NoteId>, k: string)
    requires CardsKeyed(notes, cards)
    requires k in BuildIndex(notes, cards)
    ensures exists i :: 0 <= i < |cards| && BuildIndex(notes, cards)[k] == cards[i]
              && CardKey(notes, cards, i) == k && LaterCardsDiffer(notes, cards, i, k)
    decreases |cards|
  {
    var n := |cards| - 1;
    PrefixCardKey(notes, cards, n + 1, n);
    if CardKey(notes, cards, n) != k {
      PrefixKeyed(notes, cards, n);
      IndexLastWins(notes, cards[..n], k);
      var i :| 0 <= i < n && BuildIndex(notes, cards[..n])[k] == cards[..n][i]
               && CardKey(notes, cards[..n], i) == k && LaterCardsDiffer(notes, cards[..n], i, k);
      PrefixCardKey(notes, cards, n, i);
      forall j | i < j < |cards| ensures CardKey(notes, cards, j) != k {
        if j < n {
          PrefixCardKey(notes, cards, n, j);
        }
      }
    }
  }

  /** Every indexed note is a note of the deck whose first field is its key. */
  predicate KeyedIndex(index: map<string, NoteId>, notes: map<NoteId, Note>)
  {
    forall k :: k in index ==> index[k] in notes && HasKey(notes[index[k]]) && Key(notes[index[k]]) == k
  }

  lemma IndexIsKeyed(notes: map<NoteId, Note>, cards: seq<NoteId>)
    requires CardsKeyed(notes, cards)
    ensures KeyedIndex(BuildIndex(notes, cards), notes)
    ensures forall k :: k in BuildIndex(notes, cards) ==> BuildIndex(notes, cards)[k] in cards
  {
    forall k | k in BuildIndex(notes, cards)
      ensures BuildIndex(notes, cards)[k] in notes && Key(notes[BuildIndex(notes, cards)[k]]) == k
      ensures BuildIndex(notes, cards)[k] in cards
    {
      IndexLastWins(notes, cards, k);
    }
  }

  // ---------------------------------------------------------------------
  // Reconciliation

  datatype Outcome = Update | Add | Skip

  /**
   * What becomes of the row at position `i`: an update when its expression is
   * indexed, otherwise an add, or a skip when the collection refuses the new
   * note (`rejected` holds the positions where adding fails).
   */
  function OutcomeOf(e: Entry, i: nat, index: map<string, NoteId>, rejected: set<nat>): (o: Outcome)
    ensures o == Update <==> e.expression in index
    ensures o == Skip <==> e.expression !in index && i in rejected
  {
    if e.expression in index then Update else if i in rejected then Skip else Add
  }

  /** The note a row describes. */
  function NoteOf(e: Entry): Note
  {
    Note(e.fields, e.tags)
  }

  /** One pass of the import loop over the row at position `i`. */
  function ApplyEntry(deck: string, index: map<string, NoteId>, rejected: set<nat>, run: Run, e: Entry, i: nat): (r: Run)
    requires deck in run.col.decks
    ensures deck in r.col.decks
    ensures Total(r.tally) == Total(run.tally) + 1
    ensures r.col.noteTypes == run.col.noteTypes
    ensures OutcomeOf(e, i, index, rejected) == Update ==>
              r.tally == run.tally.(updated := run.tally.updated + 1)
              && r.col == run.col.(notes := run.col.notes[index[e.expression] := NoteOf(e)])
    ensures OutcomeOf(e, i, index, rejected) == Skip ==>
              r.tally == run.tally.(skipped := run.tally.skipped + 1) && r.col == run.col
    ensures OutcomeOf(e, i, index, rejected) == Add ==>
              r.tally == run.tally.(added := run.tally.added + 1)
              && r.col.nextId == run.col.nextId + 1
              && r.col.notes == run.col.notes[run.col.nextId := NoteOf(e)]
              && r.col.decks == run.col.decks[deck := run.col.decks[deck] + [run.col.nextId]]
  {
    match OutcomeOf(e, i, index, rejected)
    case Update =>
      Run(run.col.(notes := run.col.notes[index[e.expression] := NoteOf(e)]),
          run.tally.(updated := run.tally.updated + 1))
    case Skip =>
      Run(run.col, run.tally.(skipped := run.tally.skipped + 1))
    case Add =>
      var id := run.col.nextId;
      Run(run.col.(notes := run.col.notes[id := NoteOf(e)],
                   decks := run.col.decks[deck := run.col.decks[deck] + [id]],
                   nextId := id + 1),
          run.tally.(added := run.tally.added + 1))
  }

  /**
   * The row pass with the update branch as `import_japanese_vocab` writes it: the fields
   * and tags are assigned to the note object, which is never written back, so
   * the stored note keeps its old content while the update counter moves.
   */
  function ApplyEntryAsWritten(deck: string, index: map<string, NoteId>, rejected: set<nat>, run: Run, e: Entry, i: nat): (r: Run)
    requires deck in run.col.decks
    ensures deck in r.col.decks
  {
    match OutcomeOf(e, i, index, rejected)
    case Update => Run(run.col, run.tally.(updated := run.tally.updated + 1))
    case _ => ApplyEntry(deck, index, rejected, run, e, i)
  }

  /**
   * A row whose expression names a stored note with other content: as written
   * the row is counted as an update and the stored note does not change; the
   * pass the rest of the model uses stores the row's fields and tags.
   */
  lemma UpdateLostAsWritten(deck: string, index: map<string, NoteId>, rejected: set<nat>, run: Run, e: Entry, i: nat)
    requires deck in run.col.decks && e.expression in index
    requires index[e.expression] in run.col.notes && run.col.notes[index[e.expression]] != NoteOf(e)
    ensures var r := ApplyEntryAsWritten(deck, index, rejected, run, e, i);
            r.tally.updated == run.tally.updated + 1
            && r.col.notes[index[e.expression]] == run.col.notes[index[e.expression]] != NoteOf(e)
    ensures var r := ApplyEntry(deck, index, rejected, run, e, i);
            r.tally.updated == run.tally.updated + 1 && r.col.notes[index[e.expression]] == NoteOf(e)
  {
  }

  /** The import loop over all rows, in order, against an index that new notes do not extend. */
  function Reconcile(deck: string, index: map<string, NoteId>, rejected: set<nat>, run: Run, entries: seq<Entry>): (r: Run)
    requires deck in run.col.decks
    ensures deck in r.col.decks
    ensures Total(r.tally) == Total(run.tally) + |entries|
    ensures r.col.noteTypes == run.col.noteTypes
    decreases |entries|
  {
    if entries == [] then run
    else
      var n := |entries| - 1;
      ApplyEntry(deck, index, rejected, Reconcile(deck, index, rejected, run, entries[..n]), entries[n], n)
  }

  function Total(t: Tally): nat
  {
    t.added + t.updated + t.skipped
  }

  /** The positions of the rows with a given outcome. */
  function Positions(entries: seq<Entry>, index: map<string, NoteId>, rejected: set<nat>, o: Outcome): set<nat>
  {
    set i: nat | i < |entries| && OutcomeOf(entries[i], i, index, rejected) == o
  }

  /** The positions with an outcome among all rows: those among the rows before the last, and the last if it qualifies. */
  lemma PositionsSplit(entries: seq<Entry>, index: map<string, NoteId>, rejected: set<nat>, o: Outcome)
    requires entries != []
    ensures var n := |entries| - 1;
            Positions(entries, index, rejected, o)
            == Positions(entries[..n], index, rejected, o) + (if OutcomeOf(entries[n], n, index, rejected) == o then {n} else {})
  {
    var n := |entries| - 1;
    forall i: nat | i < n ensures entries[..n][i] == entries[i] {
    }
  }

  lemma PositionsSnoc(entries: seq<Entry>, index: map<string, NoteId>, rejected: set<nat>, o: Outcome)
    requires entries != []
    ensures var n := |entries| - 1;
            |Positions(entries, index, rejected, o)|
            == |Positions(entries[..n], index, rejected, o)| + (if OutcomeOf(entries[n], n, index, rejected) == o then 1 else 0)
  {
    var n := |entries| - 1;
    PositionsSplit(entries, index, rejected, o);
    assert n !in Positions(entries[..n], index, rejected, o);
  }

  /** Each counter grows by the number of rows with its outcome. */
  lemma {:induction false} ReconcileTally(deck: string, index: map<string, NoteId>, rejected: set<nat>, run: Run, entries: seq<Entry>)
    requires deck in run.col.decks
    ensures Reconcile(deck, index, rejected, run, entries).tally
         == Tally(run.tally.added + |Positions(entries, index, rejected, Add)|,
                  run.tally.updated + |Positions(entries, index, rejected, Update)|,
                  run.tally.skipped + |Positions(entries, index, rejected, Skip)|)
    decreases |entries|
  {
    if entries != [] {
      ReconcileTally(deck, index, rejected, run, entries[..|entries| - 1]);
      PositionsSnoc(entries, index, rejected, Add);
      PositionsSnoc(entries, index, rejected, Update);
      PositionsSnoc(entries, index, rejected, Skip);
    }
  }

  /** The rows that become new notes, in row order. */
  function NewEntries(entries: seq<Entry>, index: map<string, NoteId>, rejected: set<nat>): seq<Entry>
    decreases |entries|
  {
    if entries == [] then []
    else
      var n := |entries| - 1;
      NewEntries(entries[..n], index, rejected)
        + (if OutcomeOf(entries[n], n, index, rejected) == Add then [entries[n]] else [])
  }

  /** `count` consecutive note ids from `start`. */
  function Ids(start: NoteId, count: nat): (r: seq<NoteId>)
    ensures |r| == count
    ensures forall j :: 0 <= j < count ==> r[j] == start + j
  {
    seq(count, j requires 0 <= j < count => start + j)
  }

  /** Every indexed note has an id below the next free one, so no new note can take it. */
  predicate IndexIssued(index: map<string, NoteId>, col: Collection)
  {
    forall k :: k in index ==> Issued(col, index[k])
  }

  lemma IdsSnoc(start: NoteId, count: nat)
    ensures Ids(start, count + 1) == Ids(start, count) + [start + count]
  {
  }

  /**
   * New notes take consecutive ids from the next free one and are filed, in
   * row order, at the end of the deck; no other deck and no note type changes.
   */
  lemma {:induction false} ReconcileShape(deck: string, index: map<string, NoteId>, rejected: set<nat>, run: Run, entries: seq<Entry>)
    requires deck in run.col.decks
    ensures var r := Reconcile(deck, index, rejected, run, entries);
            var added := |NewEntries(entries, index, rejected)|;
            r.col.nextId == run.col.nextId + added
            && r.col.decks == run.col.decks[deck := run.col.decks[deck] + Ids(run.col.nextId, added)]
            && r.col.noteTypes == run.col.noteTypes
    decreases |entries|
  {
    if entries != [] {
      var n := |entries| - 1;
      ReconcileShape(deck, index, rejected, run, entries[..n]);
      var mid := Reconcile(deck, index, rejected, run, entries[..n]);
      var added := |NewEntries(entries[..n], index, rejected)|;
      var cards := run.col.decks[deck];
      if OutcomeOf(entries[n], n, index, rejected) == Add {
        var decks, before := run.col.decks, cards + Ids(run.col.nextId, added);
        var after := before + [run.col.nextId + added];
        assert |NewEntries(entries, index, rejected)| == added + 1;
        assert Reconcile(deck, index, rejected, run, entries).col.decks == decks[deck := before][deck := after];
        assert decks[deck := before][deck := after] == decks[deck := after];
        assert after == cards + Ids(run.col.nextId, added + 1) by {
          IdsSnoc(run.col.nextId, added);
        }
      } else {
        assert |NewEntries(entries, index, rejected)| == added;
        assert Reconcile(deck, index, rejected, run, entries).col.decks == mid.col.decks;
      }
    } else {
      assert run.col.decks[deck] + Ids(run.col.nextId, 0) == run.col.decks[deck];
      assert run.col.decks[deck := run.col.decks[deck]] == run.col.decks;
    }
  }

  /** The new note with id `base + j` holds the `j`-th row that became a note. */
  predicate NewNoteAt(notes: map<NoteId, Note>, base: NoteId, news: seq<Entry>, j: nat)
    requires j < |news|
  {
    base + j in notes && notes[base + j] == NoteOf(news[j])
  }

  /** The `j`-th new note carries the fields and tags of the `j`-th row that was added. */
  lemma {:induction false} ReconcileNewNotes(deck: string, index: map<string, NoteId>, rejected: set<nat>, run: Run, entries: seq<Entry>)
    requires deck in run.col.decks
    requires IndexIssued(index, run.col)
    ensures var news := NewEntries(entries, index, rejected);
            forall j :: 0 <= j < |news| ==>
              NewNoteAt(Reconcile(deck, index, rejected, run, entries).col.notes, run.col.nextId, news, j)
    decreases |entries|
  {
    if entries != [] {
      var n := |entries| - 1;
      var mid := Reconcile(deck, index, rejected, run, entries[..n]);
      var before := NewEntries(entries[..n], index, rejected);
      var news := NewEntries(entries, index, rejected);
      var r := Reconcile(deck, index, rejected, run, entries);
      ReconcileNewNotes(deck, index, rejected, run, entries[..n]);
      ReconcileShape(deck, index, rejected, run, entries[..n]);
      forall j | 0 <= j < |news| ensures NewNoteAt(r.col.notes, run.col.nextId, news, j) {
        if j < |before| {
          assert NewNoteAt(mid.col.notes, run.col.nextId, before, j);
          assert news[j] == before[j];
        }
      }
    }
  }

  /** The last row, if any, whose expression is `k`. */
  function LastFor(entries: seq<Entry>, k: string): (r: Option<Entry>)
    ensures r.Some? ==> r.value in entries && r.value.expression == k
    decreases |entries|
  {
    if entries == [] then None
    else if entries[|entries| - 1].expression == k then Some(entries[|entries| - 1])
    else LastFor(entries[..|entries| - 1], k)
  }

  /** No row after position `i` has the expression `k`. */
  predicate LaterRowsDiffer(entries: seq<Entry>, i: nat, k: string)
  {
    forall j :: i < j < |entries| ==> entries[j].expression != k
  }

  /** `LastFor` finds the last row with the expression, and finds none only when there is none. */
  lemma {:induction false} LastForIsLast(entries: seq<Entry>, k: string)
    ensures LastFor(entries, k).None? <==> forall i :: 0 <= i < |entries| ==> entries[i].expression != k
    ensures LastFor(entries, k).Some? ==>
              exists i :: 0 <= i < |entries| && entries[i] == LastFor(entries, k).value && LaterRowsDiffer(entries, i, k)
    decreases |entries|
  {
    if entries != [] {
      var n := |entries| - 1;
      if entries[n].expression != k {
        LastForIsLast(entries[..n], k);
        if LastFor(entries, k).Some? {
          var i :| 0 <= i < n && entries[..n][i] == LastFor(entries, k).value && LaterRowsDiffer(entries[..n], i, k);
          assert entries[i] == entries[..n][i];
          forall j | i < j < |entries| ensures entries[j].expression != k {
            if j < n {
              assert entries[j] == entries[..n][j];
            }
          }
        } else {
          forall i | 0 <= i < |entries| ensures entries[i].expression != k {
            if i < n {
              assert entries[i] == entries[..n][i];
            }
          }
        }
      } else {
        assert LaterRowsDiffer(entries, n, k);
      }
    }
  }

  /** The note under key `k` after the run: the last row with that expression, or the note as it was. */
  function UpdatedNote(entries: seq<Entry>, k: string, before: Note): Note
  {
    match LastFor(entries, k)
    case Some(e) => NoteOf(e)
    case None => before
  }

  /**
   * An indexed note ends up holding the fields and tags of the last row with
   * its key, and is left alone when no row has it.
   */
  lemma {:induction false} ReconcileUpdates(deck: string, index: map<string, NoteId>, rejected: set<nat>, run: Run, entries: seq<Entry>, k: string)
    requires deck in run.col.decks
    requires KeyedIndex(index, run.col.notes) && IndexIssued(index, run.col)
    requires k in index
    ensures var r := Reconcile(deck, index, rejected, run, entries);
            index[k] in r.col.notes && r.col.notes[index[k]] == UpdatedNote(entries, k, run.col.notes[index[k]])
    decreases |entries|
  {
    if entries != [] {
      var n := |entries| - 1;
      var e := entries[n];
      ReconcileUpdates(deck, index, rejected, run, entries[..n], k);
      ReconcileShape(deck, index, rejected, run, entries[..n]);
      if e.expression in index && e.expression != k {
        assert Key(run.col.notes[index[e.expression]]) != Key(run.col.notes[index[k]]);
      }
    }
  }

  /** A note no index entry points at is left as it was. */
  lemma {:induction false} ReconcileKeeps(deck: string, index: map<string, NoteId>, rejected: set<nat>, run: Run, entries: seq<Entry>, id: NoteId)
    requires deck in run.col.decks
    requires id in run.col.notes && Issued(run.col, id)
    requires forall k :: k in index ==> index[k] != id
    ensures var r := Reconcile(deck, index, rejected, run, entries);
            id in r.col.notes && r.col.notes[id] == run.col.notes[id]
    decreases |entries|
  {
    if entries != [] {
      var n := |entries| - 1;
      ReconcileKeeps(deck, index, rejected, run, entries[..n], id);
      ReconcileShape(deck, index, rejected, run, entries[..n]);
    }
  }

  /** Every note of `notes` is still in `later`, still with a first field. */
  predicate StillKeyed(notes: map<NoteId, Note>, later: map<NoteId, Note>)
  {
    forall id :: id in notes ==> id in later && HasKey(later[id])
  }

  lemma CardsStayKeyed(notes: map<NoteId, Note>, later: map<NoteId, Note>, cards: seq<NoteId>)
    requires CardsKeyed(notes, cards) && StillKeyed(notes, later)
    ensures CardsKeyed(later, cards)
  {
  }

  lemma ApplyEntryValid(deck: string, index: map<string, NoteId>, rejected: set<nat>, run: Run, e: Entry, i: nat)
    requires deck in run.col.decks && Valid(run.col)
    requires forall k :: k in index ==> index[k] in run.col.notes
    requires Shaped(e)
    ensures var r := ApplyEntry(deck, index, rejected, run, e, i);
            Valid(r.col) && StillKeyed(run.col.notes, r.col.notes)
  {
    var col := run.col;
    var r := ApplyEntry(deck, index, rejected, run, e, i);
    assert HasKey(NoteOf(e));
    match OutcomeOf(e, i, index, rejected)
    case Update =>
      assert StillKeyed(col.notes, r.col.notes);
      forall d | d in r.col.decks ensures CardsKeyed(r.col.notes, r.col.decks[d]) {
        CardsStayKeyed(col.notes, r.col.notes, col.decks[d]);
      }
    case Skip =>
      assert StillKeyed(col.notes, r.col.notes);
    case Add =>
      assert StillKeyed(col.notes, r.col.notes);
      forall d | d in r.col.decks ensures CardsKeyed(r.col.notes, r.col.decks[d]) {
        CardsStayKeyed(col.notes, r.col.notes, col.decks[d]);
      }
  }

  lemma StillKeyedTrans(a: map<NoteId, Note>, b: map<NoteId, Note>, c: map<NoteId, Note>)
    requires StillKeyed(a, b) && StillKeyed(b, c)
    ensures StillKeyed(a, c)
  {
  }

  /** The import keeps the collection consistent and never loses a note. */
  lemma {:induction false} ReconcileValid(deck: string, index: map<string, NoteId>, rejected: set<nat>, run: Run, entries: seq<Entry>)
    requires deck in run.col.decks && Valid(run.col)
    requires forall k :: k in index ==> index[k] in run.col.notes
    requires forall i :: 0 <= i < |entries| ==> Shaped(entries[i])
    ensures var r := Reconcile(deck, index, rejected, run, entries);
            Valid(r.col) && StillKeyed(run.col.notes, r.col.notes)
    decreases |entries|
  {
    if entries != [] {
      var n := |entries| - 1;
      assert forall i :: 0 <= i < n ==> entries[..n][i] == entries[i];
      ReconcileValid(deck, index, rejected, run, entries[..n]);
      var mid := Reconcile(deck, index, rejected, run, entries[..n]);
      ApplyEntryValid(deck, index, rejected, mid, entries[n], n);
      StillKeyedTrans(run.col.notes, mid.col.notes, Reconcile(deck, index, rejected, run, entries).col.notes);
    } else {
      assert StillKeyed(run.col.notes, run.col.notes);
    }
  }

  // ---------------------------------------------------------------------
  // The whole import

  /** The index of a deck: each key the first field of the last card's note carrying it. */
  function DeckIndex(col: Collection, deck: string): map<string, NoteId>
    requires Valid(col) && deck in col.decks
  {
    BuildIndex(col.notes, col.decks[deck])
  }

  /**
   * `import_japanese_vocab`. A missing deck is reported before a missing note
   * type, and both before the source is read; `source` is `None` when the
   * file cannot be read, and `rejected` holds the row positions whose new
   * note the collection refuses.
   */
  function ImportVocab(col: Collection, deck: string, tags: Option<string>, source: Option<seq<Row>>, rejected: set<nat>): (r: Result<Run, ImportError>)
    requires Valid(col)
    ensures r.Success? <==> deck in col.decks && JapaneseNoteType in col.noteTypes && source.Some?
    ensures r.Success? ==> Valid(r.value.col) && r.value.col.noteTypes == col.noteTypes
  {
    if deck !in col.decks then Failure(DeckNotFound(deck))
    else if JapaneseNoteType !in col.noteTypes then Failure(NoteTypeNotFound)
    else
      var extra := ExtraTags(tags);
      var index := DeckIndex(col, deck);
      match source
      case None => Failure(SourceUnreadable)
      case Some(rows) =>
        var entries := ReadVocab(rows, extra);
        var start := Run(col, Tally(0, 0, 0));
        IndexIsKeyed(col.notes, col.decks[deck]);
        ReconcileValid(deck, index, rejected, start, entries);
        ReconcileShape(deck, index, rejected, start, entries);
        Success(Reconcile(deck, index, rejected, start, entries))
  }

  /** A missing deck or note type is reported whatever the source, the tags and the failing rows. */
  lemma ImportChecksFirst(col: Collection, deck: string, tags: Option<string>, tags2: Option<string>,
                          source: Option<seq<Row>>, source2: Option<seq<Row>>, rejected: set<nat>, rejected2: set<nat>)
    requires Valid(col)
    requires deck !in col.decks || JapaneseNoteType !in col.noteTypes
    ensures ImportVocab(col, deck, tags, source, rejected) == ImportVocab(col, deck, tags2, source2, rejected2)
    ensures ImportVocab(col, deck, tags, source, rejected)
         == if deck !in col.decks then Failure(DeckNotFound(deck)) else Failure(NoteTypeNotFound)
  {
  }

  /**
   * The three counters: `updated` counts the rows whose expression the deck
   * already had, `skipped` the other rows the collection refused, and `added`
   * the rest; together they count every row.
   */
  lemma ImportCounts(col: Collection, deck: string, tags: Option<string>, rows: seq<Row>, rejected: set<nat>)
    requires Valid(col) && deck in col.decks && JapaneseNoteType in col.noteTypes
    ensures var entries := ReadVocab(rows, ExtraTags(tags));
            var index := DeckIndex(col, deck);
            var t := ImportVocab(col, deck, tags, Some(rows), rejected).value.tally;
            t == Tally(|Positions(entries, index, rejected, Add)|,
                       |Positions(entries, index, rejected, Update)|,
                       |Positions(entries, index, rejected, Skip)|)
            && t.added + t.updated + t.skipped == |rows|
  {
    var entries := ReadVocab(rows, ExtraTags(tags));
    var index := DeckIndex(col, deck);
    var start := Run(col, Tally(0, 0, 0));
    ImportIsReconcile(col, deck, tags, rows, rejected);
    ReconcileTally(deck, index, rejected, start, entries);
    assert |entries| == |rows|;
  }

  /** A row whose outcome is an add is one of the rows that became new notes. */
  lemma {:induction false} AddedRowIsNew(entries: seq<Entry>, index: map<string, NoteId>, rejected: set<nat>, i: nat)
    requires i < |entries| && OutcomeOf(entries[i], i, index, rejected) == Add
    ensures exists j :: 0 <= j < |NewEntries(entries, index, rejected)| && NewEntries(entries, index, rejected)[j] == entries[i]
    decreases |entries|
  {
    var n := |entries| - 1;
    var before := NewEntries(entries[..n], index, rejected);
    if i < n {
      assert entries[..n][i] == entries[i];
      AddedRowIsNew(entries[..n], index, rejected, i);
      var j :| 0 <= j < |before| && before[j] == entries[i];
      assert NewEntries(entries, index, rejected)[j] == before[j];
    } else {
      assert NewEntries(entries, index, rejected)[|before|] == entries[i];
    }
  }

  /** The index entries of a consistent collection point at issued ids. */
  lemma DeckIndexIssued(col: Collection, deck: string)
    requires Valid(col) && deck in col.decks
    ensures KeyedIndex(DeckIndex(col, deck), col.notes) && IndexIssued(DeckIndex(col, deck), col)
    ensures forall k :: k in DeckIndex(col, deck) ==> DeckIndex(col, deck)[k] in col.decks[deck]
  {
    IndexIsKeyed(col.notes, col.decks[deck]);
  }

  /** The deck after an import: its old cards, then the new notes. */
  lemma ReconcileFromStart(col: Collection, deck: string, rejected: set<nat>, entries: seq<Entry>)
    requires Valid(col) && deck in col.decks
    requires forall i :: 0 <= i < |entries| ==> Shaped(entries[i])
    ensures var index := DeckIndex(col, deck);
            var r := Reconcile(deck, index, rejected, Run(col, Tally(0, 0, 0)), entries);
            Valid(r.col) && deck in r.col.decks
            && r.col.decks[deck] == col.decks[deck] + Ids(col.nextId, |NewEntries(entries, index, rejected)|)
  {
    var index := DeckIndex(col, deck);
    var start := Run(col, Tally(0, 0, 0));
    DeckIndexIssued(col, deck);
    ReconcileValid(deck, index, rejected, start, entries);
    ReconcileShape(deck, index, rejected, start, entries);
  }

  /** A row whose expression the deck already had keeps it: the updated note still carries it. */
  lemma KnownExpressionStays(col: Collection, deck: string, rejected: set<nat>, entries: seq<Entry>, i: nat)
    requires Valid(col) && deck in col.decks
    requires forall i :: 0 <= i < |entries| ==> Shaped(entries[i])
    requires i < |entries| && entries[i].expression in DeckIndex(col, deck)
    ensures var r := Reconcile(deck, DeckIndex(col, deck), rejected, Run(col, Tally(0, 0, 0)), entries);
            Valid(r.col) && entries[i].expression in DeckIndex(r.col, deck)
  {
    var index := DeckIndex(col, deck);
    var start := Run(col, Tally(0, 0, 0));
    var r := Reconcile(deck, index, rejected, start, entries);
    var cards := col.decks[deck];
    var k := entries[i].expression;
    ReconcileFromStart(col, deck, rejected, entries);
    DeckIndexIssued(col, deck);
    var p :| 0 <= p < |cards| && cards[p] == index[k];
    assert r.col.decks[deck][p] == index[k];
    assert r.col.notes[index[k]] == NoteOf(LastFor(entries, k).value) by {
      ReconcileUpdates(deck, index, rejected, start, entries, k);
      LastForIsLast(entries, k);
    }
    assert CardKey(r.col.notes, r.col.decks[deck], p) == k;
    IndexDomain(r.col.notes, r.col.decks[deck], k);
  }

  /** The card of the `j`-th new note leads to the `j`-th added row's note. */
  lemma NewRowCard(col: Collection, deck: string, rejected: set<nat>, entries: seq<Entry>, j: nat)
    requires Valid(col) && deck in col.decks
    requires forall i :: 0 <= i < |entries| ==> Shaped(entries[i])
    requires j < |NewEntries(entries, DeckIndex(col, deck), rejected)|
    ensures var r := Reconcile(deck, DeckIndex(col, deck), rejected, Run(col, Tally(0, 0, 0)), entries);
            Valid(r.col) && |col.decks[deck]| + j < |r.col.decks[deck]|
            && r.col.decks[deck][|col.decks[deck]| + j] in r.col.notes
            && r.col.notes[r.col.decks[deck][|col.decks[deck]| + j]] == NoteOf(NewEntries(entries, DeckIndex(col, deck), rejected)[j])
  {
    var index := DeckIndex(col, deck);
    ReconcileFromStart(col, deck, rejected, entries);
    DeckIndexIssued(col, deck);
    ReconcileNewNotes(deck, index, rejected, Run(col, Tally(0, 0, 0)), entries);
    assert NewNoteAt(Reconcile(deck, index, rejected, Run(col, Tally(0, 0, 0)), entries).col.notes,
                     col.nextId, NewEntries(entries, index, rejected), j);
  }

  /** A row whose expression the deck did not have, and whose add succeeds, is filed under it as a new note. */
  lemma NewExpressionFiled(col: Collection, deck: string, rejected: set<nat>, entries: seq<Entry>, i: nat)
    requires Valid(col) && deck in col.decks
    requires forall i :: 0 <= i < |entries| ==> Shaped(entries[i])
    requires i < |entries| && entries[i].expression !in DeckIndex(col, deck) && i !in rejected
    ensures var r := Reconcile(deck, DeckIndex(col, deck), rejected, Run(col, Tally(0, 0, 0)), entries);
            Valid(r.col) && entries[i].expression in DeckIndex(r.col, deck)
  {
    var index := DeckIndex(col, deck);
    var r := Reconcile(deck, index, rejected, Run(col, Tally(0, 0, 0)), entries);
    var news := NewEntries(entries, index, rejected);
    AddedRowIsNew(entries, index, rejected, i);
    var j :| 0 <= j < |news| && news[j] == entries[i];
    NewRowCard(col, deck, rejected, entries, j);
    var p := |col.decks[deck]| + j;
    assert Shaped(entries[i]);
    assert CardKey(r.col.notes, r.col.decks[deck], p) == entries[i].expression;
    IndexDomain(r.col.notes, r.col.decks[deck], entries[i].expression);
  }

  /** When every row's expression is indexed, every row is an update. */
  lemma AllKnownAllUpdates(entries: seq<Entry>, index: map<string, NoteId>, rejected: set<nat>)
    requires forall i :: 0 <= i < |entries| ==> entries[i].expression in index
    ensures Positions(entries, index, rejected, Add) == {}
    ensures Positions(entries, index, rejected, Skip) == {}
  {
  }

  /** A successful import is the reconciliation of the read rows against the deck's index. */
  lemma ImportIsReconcile(col: Collection, deck: string, tags: Option<string>, rows: seq<Row>, rejected: set<nat>)
    requires Valid(col) && deck in col.decks && JapaneseNoteType in col.noteTypes
    ensures ImportVocab(col, deck, tags, Some(rows), rejected)
         == Success(Reconcile(deck, DeckIndex(col, deck), rejected, Run(col, Tally(0, 0, 0)), ReadVocab(rows, ExtraTags(tags))))
  {
  }

  /** After an import in which no add fails, the deck's index knows every row's expression. */
  lemma ImportIndexesEveryRow(col: Collection, deck: string, entries: seq<Entry>)
    requires Valid(col) && deck in col.decks
    requires forall i :: 0 <= i < |entries| ==> Shaped(entries[i])
    ensures var after := Reconcile(deck, DeckIndex(col, deck), {}, Run(col, Tally(0, 0, 0)), entries).col;
            Valid(after) && deck in after.decks
            && forall i :: 0 <= i < |entries| ==> entries[i].expression in DeckIndex(after, deck)
  {
    var after := Reconcile(deck, DeckIndex(col, deck), {}, Run(col, Tally(0, 0, 0)), entries).col;
    ReconcileFromStart(col, deck, {}, entries);
    forall i | 0 <= i < |entries| ensures entries[i].expression in DeckIndex(after, deck) {
      if entries[i].expression in DeckIndex(col, deck) {
        KnownExpressionStays(col, deck, {}, entries, i);
      } else {
        NewExpressionFiled(col, deck, {}, entries, i);
      }
    }
  }

  /**
   * Importing the same file a second time, after a first import in which no
   * add failed, adds nothing and updates every row.
   */
  lemma ReimportUpdatesEveryRow(col: Collection, deck: string, tags: Option<string>, rows: seq<Row>, rejected: set<nat>)
    requires Valid(col) && deck in col.decks && JapaneseNoteType in col.noteTypes
    ensures var first := ImportVocab(col, deck, tags, Some(rows), {});
            first.Success?
            && var second := ImportVocab(first.value.col, deck, tags, Some(rows), rejected);
               second.Success? && second.value.tally == Tally(0, |rows|, 0)
  {
    var entries := ReadVocab(rows, ExtraTags(tags));
    var col1 := Reconcile(deck, DeckIndex(col, deck), {}, Run(col, Tally(0, 0, 0)), entries).col;
    ImportIsReconcile(col, deck, tags, rows, {});
    ImportIndexesEveryRow(col, deck, entries);
    AllKnownAllUpdates(entries, DeckIndex(col1, deck), rejected);
    ImportCounts(col1, deck, tags, rows, rejected);
  }

  /**
   * The index is not extended by the notes the import adds: two rows with the
   * same new expression both become notes.
   */
  lemma DuplicateNewRowsBothAdded(deck: string, index: map<string, NoteId>, run: Run, e: Entry)
    requires deck in run.col.decks && e.expression !in index
    ensures var r := Reconcile(deck, index, {}, run, [e, e]);
            r.tally.added == run.tally.added + 2
            && r.col.decks[deck] == run.col.decks[deck] + [run.col.nextId, run.col.nextId + 1]
  {
    var first := ApplyEntry(deck, index, {}, run, e, 0);
    assert Reconcile(deck, index, {}, run, [e]) == first by {
      assert [e][..0] == [];
    }
    assert Reconcile(deck, index, {}, run, [e, e]) == ApplyEntry(deck, index, {}, first, e, 1) by {
      assert [e, e][..1] == [e];
    }
    assert first.col.decks[deck] == run.col.decks[deck] + [run.col.nextId];
    assert run.col.decks[deck] + [run.col.nextId] + [run.col.nextId + 1]
        == run.col.decks[deck] + [run.col.nextId, run.col.nextId + 1];
  }
}

=== FILE: japanese_utils.dfy ===
/**
 * Character classification and furigana annotation.
 *
 * `AddFurigana` splits the reading into segments (each kana on its own, each
 * maximal run of other characters as one segment) and walks the expression
 * with a cursor into those segments: a kanji takes the segment under the
 * cursor as its gloss, and a non-kanji that equals the segment under the
 * cursor moves the cursor on.
 */
module JapaneseUtils {

  /** A CJK Unified Ideograph, U+4E00 to U+9FFF inclusive. */
  predicate IsKanji(c: char)
    ensures IsKanji(c) ==> !IsKana(c)
  {
    '\U{4E00}' <= c <= '\U{9FFF}'
  }

  /**
   * Hiragana (U+3040 to U+309F) or katakana (U+30A0 to U+30FF). The two
   * blocks are adjacent, so together they are the one range U+3040..U+30FF.
   */
  predicate IsKana(c: char)
    ensures IsKana(c) <==> '\U{3040}' <= c <= '\U{30FF}'
  {
    ('\U{3040}' <= c <= '\U{309F}') || ('\U{30A0}' <= c <= '\U{30FF}')
  }

  predicate HasKanji(s: string)
  {
    exists i :: 0 <= i < |s| && IsKanji(s[i])
  }

  // ---------------------------------------------------------------------
  // Segmentation of the reading

  /** A single kana, which the segmentation always keeps on its own. */
  predicate KanaSegment(seg: string)
  {
    |seg| == 1 && IsKana(seg[0])
  }

  /** A non-empty run of characters none of which is kana. */
  predicate RunSegment(seg: string)
  {
    |seg| >= 1 && forall i :: 0 <= i < |seg| ==> !IsKana(seg[i])
  }

  /** Segment `i` is a kana or a run. */
  predicate SegmentOk(segs: seq<string>, i: int)
    requires 0 <= i < |segs|
  {
    KanaSegment(segs[i]) || RunSegment(segs[i])
  }

  /** Segments `i - 1` and `i` are not both runs. */
  predicate Apart(segs: seq<string>, i: int)
    requires 0 < i < |segs|
  {
    !(RunSegment(segs[i - 1]) && RunSegment(segs[i]))
  }

  /** Every segment is a kana or a run, and no two runs are adjacent (runs are maximal). */
  predicate WellFormed(segs: seq<string>)
  {
    && (forall i :: 0 <= i < |segs| ==> SegmentOk(segs, i))
    && (forall i :: 0 < i < |segs| ==> Apart(segs, i))
  }

  function Concat(segs: seq<string>): string
  {
    if |segs| == 0 then [] else Concat(segs[..|segs| - 1]) + segs[|segs| - 1]
  }

  /**
   * The segments of a reading, defined on its prefixes: a kana always starts
   * a new segment, and any other character extends the last segment unless
   * that segment is a kana (or there is none).
   */
  function Segments(reading: string): (segs: seq<string>)
    ensures |segs| <= |reading|
  {
    if |reading| == 0 then []
    else
      var prev := Segments(reading[..|reading| - 1]);
      var c := reading[|reading| - 1];
      if !IsKana(c) && |prev| > 0 && !KanaSegment(prev[|prev| - 1]) then
        prev[..|prev| - 1] + [prev[|prev| - 1] + [c]]
      else
        prev + [[c]]
  }

  lemma ConcatSnoc(segs: seq<string>, seg: string)
    ensures Concat(segs + [seg]) == Concat(segs) + seg
  {
    assert (segs + [seg])[..|segs|] == segs;
  }

  lemma RunSnoc(run: string, c: char)
    requires RunSegment(run) && !IsKana(c)
    ensures RunSegment(run + [c])
  {
    assert forall i :: 0 <= i < |run| ==> (run + [c])[i] == run[i];
  }

  lemma WellFormedFront(segs: seq<string>)
    requires WellFormed(segs) && |segs| > 0
    ensures WellFormed(segs[..|segs| - 1])
  {
    var front := segs[..|segs| - 1];
    forall i | 0 <= i < |front| ensures SegmentOk(front, i) {
      assert SegmentOk(segs, i) && front[i] == segs[i];
    }
    forall i | 0 < i < |front| ensures Apart(front, i) {
      assert Apart(segs, i) && front[i] == segs[i] && front[i - 1] == segs[i - 1];
    }
  }

  /** Appending a segment keeps the segmentation well formed unless it puts two runs side by side. */
  lemma WellFormedSnoc(segs: seq<string>, seg: string)
    requires WellFormed(segs)
    requires KanaSegment(seg) || RunSegment(seg)
    requires |segs| == 0 || !(RunSegment(segs[|segs| - 1]) && RunSegment(seg))
    ensures WellFormed(segs + [seg])
  {
    var t := segs + [seg];
    forall i | 0 <= i < |t| ensures SegmentOk(t, i) {
      if i < |segs| {
        assert SegmentOk(segs, i) && t[i] == segs[i];
      }
    }
    forall i | 0 < i < |t| ensures Apart(t, i) {
      if i < |segs| {
        assert Apart(segs, i) && t[i] == segs[i] && t[i - 1] == segs[i - 1];
      } else {
        assert t[i - 1] == segs[|segs| - 1];
      }
    }
  }

  /** Extending the trailing run by a non-kana keeps the segmentation well formed. */
  lemma ExtendRun(prev: seq<string>, c: char)
    requires WellFormed(prev) && |prev| > 0 && !KanaSegment(prev[|prev| - 1]) && !IsKana(c)
    ensures WellFormed(prev[..|prev| - 1] + [prev[|prev| - 1] + [c]])
  {
    var n := |prev|;
    var init := prev[..n - 1];
    var last := prev[n - 1];
    assert SegmentOk(prev, n - 1);
    WellFormedFront(prev);
    RunSnoc(last, c);
    if n > 1 {
      assert Apart(prev, n - 1);
      assert init[n - 2] == prev[n - 2];
    }
    WellFormedSnoc(init, last + [c]);
  }

  lemma ExtendRunConcat(init: seq<string>, last: string, c: char)
    ensures Concat(init + [last + [c]]) == Concat(init + [last]) + [c]
  {
    ConcatSnoc(init, last);
    ConcatSnoc(init, last + [c]);
  }

  /** One more character keeps the segmentation sound. */
  lemma SoundStep(front: string, c: char)
    requires WellFormed(Segments(front)) && Concat(Segments(front)) == front
    ensures WellFormed(Segments(front + [c])) && Concat(Segments(front + [c])) == front + [c]
  {
    var prev := Segments(front);
    SegmentsSnoc(front, c);
    if !IsKana(c) && |prev| > 0 && !KanaSegment(prev[|prev| - 1]) {
      SoundExtend(prev, c);
    } else {
      WellFormedSnoc(prev, [c]);
      ConcatSnoc(prev, [c]);
    }
  }

  lemma SoundExtend(prev: seq<string>, c: char)
    requires WellFormed(prev) && |prev| > 0 && !KanaSegment(prev[|prev| - 1]) && !IsKana(c)
    ensures WellFormed(prev[..|prev| - 1] + [prev[|prev| - 1] + [c]])
    ensures Concat(prev[..|prev| - 1] + [prev[|prev| - 1] + [c]]) == Concat(prev) + [c]
  {
    ExtendRun(prev, c);
    assert prev == prev[..|prev| - 1] + [prev[|prev| - 1]];
    ExtendRunConcat(prev[..|prev| - 1], prev[|prev| - 1], c);
  }

  /** The segments are well formed and concatenate back to the reading. */
  lemma {:induction false} SegmentsSound(reading: string)
    ensures WellFormed(Segments(reading))
    ensures Concat(Segments(reading)) == reading
    decreases |reading|
  {
    if |reading| > 0 {
      var front := reading[..|reading| - 1];
      SegmentsSound(front);
      SoundStep(front, reading[|reading| - 1]);
      assert reading == front + [reading[|reading| - 1]];
    }
  }

  /** A closing single-character segment is what the segmentation would produce after the front. */
  lemma UniqueStepSingle(front: seq<string>, c: char)
    requires Segments(Concat(front)) == front
    requires WellFormed(front + [[c]])
    ensures Segments(Concat(front + [[c]])) == front + [[c]]
  {
    var segs := front + [[c]];
    var n := |segs|;
    ConcatSnoc(front, [c]);
    SegmentsSnoc(Concat(front), c);
    if !IsKana(c) && |front| > 0 {
      assert SegmentOk(segs, n - 1) && segs[n - 1] == [c];
      assert RunSegment([c]);
      assert Apart(segs, n - 1) && SegmentOk(segs, n - 2);
      assert segs[n - 2] == front[|front| - 1];
      assert KanaSegment(front[|front| - 1]);
    }
  }

  /** A closing run one character longer is what the segmentation would produce after the shorter run. */
  lemma UniqueStepLonger(front: seq<string>, run: string, c: char)
    requires Segments(Concat(front + [run])) == front + [run]
    requires RunSegment(run) && !IsKana(c)
    ensures Segments(Concat(front + [run + [c]])) == front + [run + [c]]
  {
    var prev := front + [run];
    ConcatSnoc(front, run);
    ConcatSnoc(front, run + [c]);
    assert Concat(front) + (run + [c]) == Concat(front) + run + [c];
    SegmentsSnoc(Concat(prev), c);
    assert prev[|prev| - 1] == run && prev[..|prev| - 1] == front;
    assert !KanaSegment(run);
  }

  /**
   * The segmentation is the only well-formed way to cut the reading:
   * any well-formed segments that concatenate to the reading are `Segments(reading)`.
   */
  lemma {:induction false} SegmentsUnique(segs: seq<string>, reading: string)
    requires WellFormed(segs)
    requires Concat(segs) == reading
    ensures segs == Segments(reading)
    decreases |reading|
  {
    if |segs| == 0 {
      return;
    }
    var n := |segs|;
    var last := segs[n - 1];
    var front := segs[..n - 1];
    assert segs == front + [last];
    assert SegmentOk(segs, n - 1);
    WellFormedFront(segs);
    ConcatSnoc(front, last);
    if |last| == 1 {
      SegmentsUnique(front, Concat(front));
      assert last == [last[0]];
      UniqueStepSingle(front, last[0]);
    } else {
      var shorter := last[..|last| - 1];
      var c := last[|last| - 1];
      assert last == shorter + [c];
      assert RunSegment(last);
      assert RunSegment(shorter) by {
        assert forall i :: 0 <= i < |shorter| ==> shorter[i] == last[i];
      }
      if n > 1 {
        assert Apart(segs, n - 1) && front[n - 2] == segs[n - 2];
      }
      WellFormedSnoc(front, shorter);
      ConcatSnoc(front, shorter);
      SegmentsUnique(front + [shorter], Concat(front + [shorter]));
      UniqueStepLonger(front, shorter, c);
    }
  }

  // ---------------------------------------------------------------------
  // The annotation walk

  /** What the walk emits for one expression character: the bare character, or the character with a gloss. */
  datatype Piece = Bare(ch: char) | Ruby(ch: char, gloss: string)

  function RenderPiece(p: Piece): string
  {
    match p
    case Bare(c) => [c]
    case Ruby(c, g) => [c] + "[" + g + "]"
  }

  function Render(ps: seq<Piece>): string
  {
    if |ps| == 0 then [] else Render(ps[..|ps| - 1]) + RenderPiece(ps[|ps| - 1])
  }

  /** The characters the pieces annotate, with every gloss removed. */
  function Bases(ps: seq<Piece>): string
  {
    if |ps| == 0 then [] else Bases(ps[..|ps| - 1]) + [ps[|ps| - 1].ch]
  }

  /** One step of the walk: the piece emitted for `c` and the new cursor. */
  function Step(c: char, segs: seq<string>, k: nat): (r: (Piece, nat))
    ensures r.0.ch == c
    ensures r.0.Ruby? <==> IsKanji(c) && k < |segs|
    ensures r.0.Ruby? ==> r.0.gloss == segs[k]
    ensures r.1 == (if k < |segs| && (IsKanji(c) || [c] == segs[k]) then k + 1 else k)
  {
    if IsKanji(c) then
      if k < |segs| then (Ruby(c, segs[k]), k + 1) else (Bare(c), k)
    else if k < |segs| && [c] == segs[k] then (Bare(c), k + 1)
    else (Bare(c), k)
  }

  /** The walk over a prefix of the expression: the pieces emitted so far and the cursor after them. */
  function Walk(expr: string, segs: seq<string>): (w: (seq<Piece>, nat))
    ensures |w.0| == |expr|
    ensures w.1 <= |segs|
  {
    if |expr| == 0 then ([], 0)
    else
      var prev := Walk(expr[..|expr| - 1], segs);
      var step := Step(expr[|expr| - 1], segs, prev.1);
      (prev.0 + [step.0], step.1)
  }

  /** Every piece annotates its own character, and only kanji get a gloss. */
  lemma {:induction false} WalkShape(expr: string, segs: seq<string>)
    ensures forall i :: 0 <= i < |expr| ==> Walk(expr, segs).0[i].ch == expr[i]
    ensures forall i :: 0 <= i < |expr| && Walk(expr, segs).0[i].Ruby? ==> IsKanji(expr[i])
  {
    if |expr| > 0 {
      var front := expr[..|expr| - 1];
      WalkShape(front, segs);
      var ps := Walk(expr, segs).0;
      assert forall i :: 0 <= i < |front| ==> ps[i] == Walk(front, segs).0[i];
    }
  }

  /** The cursor position before the `i`-th expression character is processed. */
  function Cursor(expr: string, segs: seq<string>, i: nat): nat
    requires i <= |expr|
  {
    Walk(expr[..i], segs).1
  }

  function Annotate(expr: string, reading: string): seq<Piece>
  {
    Walk(expr, Segments(reading)).0
  }

  /** `add_furigana`. */
  function AddFurigana(expression: string, reading: string): (r: string)
    ensures !HasKanji(expression) ==> r == reading
    ensures HasKanji(expression) ==>
              exists ps: seq<Piece> :: r == Render(ps) && |ps| == |expression| && Bases(ps) == expression
                && forall i :: 0 <= i < |ps| && ps[i].Ruby? ==> IsKanji(expression[i])
  {
    if !HasKanji(expression) then reading
    else
      AnnotationStripsToExpression(expression, reading);
      Render(Annotate(expression, reading))
  }

  // ---------------------------------------------------------------------
  // Properties of the walk

  lemma BasesOfPieces(ps: seq<Piece>, s: string)
    requires |ps| == |s|
    requires forall i :: 0 <= i < |s| ==> ps[i].ch == s[i]
    ensures Bases(ps) == s
  {
    if |ps| > 0 {
      BasesOfPieces(ps[..|ps| - 1], s[..|s| - 1]);
    }
  }

  /**
   * Stripping the glosses from the annotation gives the expression back,
   * and a gloss only ever follows a kanji.
   */
  lemma AnnotationStripsToExpression(expr: string, reading: string)
    ensures Bases(Annotate(expr, reading)) == expr
    ensures forall i :: 0 <= i < |expr| && Annotate(expr, reading)[i].Ruby? ==> IsKanji(expr[i])
  {
    var ps := Annotate(expr, reading);
    WalkShape(expr, Segments(reading));
    BasesOfPieces(ps, expr);
  }

  /** The walk over a prefix is the prefix of the walk. */
  lemma {:induction false} WalkPrefix(expr: string, segs: seq<string>, i: nat)
    requires i <= |expr|
    ensures Walk(expr, segs).0[..i] == Walk(expr[..i], segs).0
    decreases |expr|
  {
    if i < |expr| {
      var front := expr[..|expr| - 1];
      WalkPrefix(front, segs, i);
      assert front[..i] == expr[..i];
      assert Walk(expr, segs).0[..|expr| - 1] == Walk(front, segs).0;
    } else {
      assert expr[..i] == expr;
    }
  }

  /** The piece for character `i` is the step taken from the cursor before it. */
  lemma PieceAt(expr: string, segs: seq<string>, i: nat)
    requires i < |expr|
    ensures Walk(expr, segs).0[i] == Step(expr[i], segs, Cursor(expr, segs, i)).0
    ensures Cursor(expr, segs, i + 1) == Step(expr[i], segs, Cursor(expr, segs, i)).1
  {
    WalkPrefix(expr, segs, i + 1);
    assert expr[..i + 1][..i] == expr[..i];
  }

  /** The cursor only moves forward. */
  lemma {:induction false} CursorMonotone(expr: string, segs: seq<string>, i: nat, j: nat)
    requires i <= j <= |expr|
    ensures Cursor(expr, segs, i) <= Cursor(expr, segs, j) <= |segs|
    decreases j - i
  {
    if i < j {
      CursorMonotone(expr, segs, i + 1, j);
      PieceAt(expr, segs, i);
    }
  }

  /**
   * A kanji is glossed with the segment under the cursor exactly when
   * segments remain; once they are used up, it is emitted bare.
   */
  lemma KanjiGlossedIffSegmentsRemain(expr: string, segs: seq<string>, i: nat)
    requires i < |expr| && IsKanji(expr[i])
    ensures Walk(expr, segs).0[i].Ruby? <==> Cursor(expr, segs, i) < |segs|
    ensures Walk(expr, segs).0[i].Ruby? ==> Walk(expr, segs).0[i].gloss == segs[Cursor(expr, segs, i)]
  {
    PieceAt(expr, segs, i);
  }

  /** Once a kanji goes bare for want of segments, every later kanji goes bare too. */
  lemma BareKanjiStaysBare(expr: string, segs: seq<string>, i: nat, j: nat)
    requires i < j < |expr|
    requires IsKanji(expr[i]) && IsKanji(expr[j])
    requires Walk(expr, segs).0[i].Bare?
    ensures Walk(expr, segs).0[j].Bare?
  {
    KanjiGlossedIffSegmentsRemain(expr, segs, i);
    CursorMonotone(expr, segs, i, j);
    KanjiGlossedIffSegmentsRemain(expr, segs, j);
  }

  /** Glosses take segments strictly left to right: no segment glosses two kanji. */
  lemma GlossesInOrder(expr: string, segs: seq<string>, i: nat, j: nat)
    requires i < j < |expr|
    requires Walk(expr, segs).0[i].Ruby? && Walk(expr, segs).0[j].Ruby?
    ensures Cursor(expr, segs, i) < Cursor(expr, segs, j)
  {
    PieceAt(expr, segs, i);
    CursorMonotone(expr, segs, i + 1, j);
  }

  /** An expression made only of kanji glosses its `i`-th character with the `i`-th segment, while segments last. */
  lemma {:induction false} AllKanjiGlossedInTurn(expr: string, segs: seq<string>, i: nat)
    requires forall k :: 0 <= k < |expr| ==> IsKanji(expr[k])
    requires i < |expr|
    ensures Cursor(expr, segs, i) == if i < |segs| then i else |segs|
    ensures Walk(expr, segs).0[i] == if i < |segs| then Ruby(expr[i], segs[i]) else Bare(expr[i])
  {
    if i > 0 {
      AllKanjiGlossedInTurn(expr, segs, i - 1);
      PieceAt(expr, segs, i - 1);
    } else {
      assert expr[..0] == [];
    }
    PieceAt(expr, segs, i);
  }

  /** An expression without kanji is replaced by its reading, whatever that reading is. */
  lemma NoKanjiKeepsReading(expression: string, reading: string)
    requires forall i :: 0 <= i < |expression| ==> !IsKanji(expression[i])
    ensures AddFurigana(expression, reading) == reading
  {
  }

  // ---------------------------------------------------------------------
  // `add_furigana`'s loops

  /** Appending one character to the reading: it starts a new segment or extends a trailing run. */
  lemma SegmentsSnoc(r: string, c: char)
    ensures var prev := Segments(r);
            Segments(r + [c]) ==
              if !IsKana(c) && |prev| > 0 && !KanaSegment(prev[|prev| - 1])
              then prev[..|prev| - 1] + [prev[|prev| - 1] + [c]]
              else prev + [[c]]
  {
    assert (r + [c])[..|r|] == r;
  }

  /** Appending one character to the expression takes one more step of the walk. */
  lemma WalkSnoc(e: string, c: char, segs: seq<string>)
    ensures var prev := Walk(e, segs);
            var step := Step(c, segs, prev.1);
            Walk(e + [c], segs) == (prev.0 + [step.0], step.1)
  {
    assert (e + [c])[..|e|] == e;
  }

  lemma RenderSnoc(ps: seq<Piece>, p: Piece)
    ensures Render(ps + [p]) == Render(ps) + RenderPiece(p)
  {
    assert (ps + [p])[..|ps|] == ps;
  }

  /** The segments still being built: the flushed ones, then the pending run if there is one. */
  function Pending(segs: seq<string>, current: string): seq<string>
  {
    if current == [] then segs else segs + [current]
  }

  /** The state of the segmentation loop after reading `r`. */
  predicate SplitState(r: string, segs: seq<string>, current: string)
  {
    && Pending(segs, current) == Segments(r)
    && (current == [] || RunSegment(current))
    && (|segs| == 0 || KanaSegment(segs[|segs| - 1]))
  }

  /** A kana flushes the pending run and becomes a segment of its own. */
  lemma SplitKana(r: string, c: char, segs: seq<string>, current: string)
    requires SplitState(r, segs, current) && IsKana(c)
    ensures SplitState(r + [c], Pending(segs, current) + [[c]], [])
  {
    SegmentsSnoc(r, c);
  }

  /** Any other character joins the pending run. */
  lemma SplitOther(r: string, c: char, segs: seq<string>, current: string)
    requires SplitState(r, segs, current) && !IsKana(c)
    ensures SplitState(r + [c], segs, current + [c])
  {
    SegmentsSnoc(r, c);
    var prev := Segments(r);
    if current != [] {
      RunSnoc(current, c);
      assert prev == segs + [current];
      assert prev[|prev| - 1] == current && prev[..|prev| - 1] == segs;
      assert !KanaSegment(current);
      assert Segments(r + [c]) == segs + [current + [c]];
    } else {
      assert prev == segs;
      assert Segments(r + [c]) == segs + [[c]];
      assert [] + [c] == [c];
      assert RunSegment([c]);
    }
  }

  /** The segmentation loop as written: a pending run is flushed before each kana and at the end. */
  method SplitReading(reading: string) returns (segs: seq<string>)
    ensures segs == Segments(reading)
  {
    segs := [];
    var current: string := [];
    var i := 0;
    while i < |reading|
      invariant 0 <= i <= |reading|
      invariant SplitState(reading[..i], segs, current)
    {
      var c := reading[i];
      assert reading[..i + 1] == reading[..i] + [c];
      if IsKana(c) {
        SplitKana(reading[..i], c, segs, current);
        segs := Pending(segs, current) + [[c]];
        current := [];
      } else {
        SplitOther(reading[..i], c, segs, current);
        current := current + [c];
      }
      i := i + 1;
    }
    assert reading[..i] == reading;
    segs := Pending(segs, current);
  }

  /** `any(is_kanji(c) for c in expression)` in `add_furigana`. */
  method AnyKanji(expression: string) returns (b: bool)
    ensures b == HasKanji(expression)
  {
    b := false;
    var j := 0;
    while j < |expression|
      invariant 0 <= j <= |expression|
      invariant b <==> exists i :: 0 <= i < j && IsKanji(expression[i])
    {
      if IsKanji(expression[j]) {
        b := true;
      }
      j := j + 1;
    }
  }

  /** The walk over one more character of the expression: one more piece, and the cursor that step leaves. */
  lemma WalkPrefixSnoc(e: string, i: nat, segs: seq<string>)
    requires i < |e|
    ensures var prev := Walk(e[..i], segs);
            var step := Step(e[i], segs, prev.1);
            Walk(e[..i + 1], segs) == (prev.0 + [step.0], step.1)
            && Render(Walk(e[..i + 1], segs).0) == Render(prev.0) + RenderPiece(step.0)
  {
    assert e[..i + 1] == e[..i] + [e[i]];
    WalkSnoc(e[..i], e[i], segs);
    RenderSnoc(Walk(e[..i], segs).0, Step(e[i], segs, Walk(e[..i], segs).1).0);
  }

  /** One turn of the annotation loop as written: the text appended for `c` and the cursor after it. */
  method WalkTurn(c: char, segs: seq<string>, k: nat) returns (text: string, k': nat)
    ensures text == RenderPiece(Step(c, segs, k).0) && k' == Step(c, segs, k).1
    ensures k' == k || k' == k + 1
  {
    if IsKanji(c) {
      if k < |segs| {
        text := [c] + "[" + segs[k] + "]";
        k' := k + 1;
      } else {
        text := [c];
        k' := k;
      }
    } else {
      text := [c];
      if k < |segs| && [c] == segs[k] {
        k' := k + 1;
      } else {
        k' := k;
      }
    }
  }

  /** The annotation loop as written: the cursor walk, appending each character's text as it goes. */
  method WalkLoop(expression: string, segs: seq<string>) returns (out: string)
    ensures out == Render(Walk(expression, segs).0)
  {
    out := [];
    var k := 0;
    var i := 0;
    while i < |expression|
      invariant 0 <= i <= |expression|
      invariant out == Render(Walk(expression[..i], segs).0)
      invariant k == Walk(expression[..i], segs).1
    {
      var text, k' := WalkTurn(expression[i], segs, k);
      WalkPrefixSnoc(expression, i, segs);
      out, k := out + text, k';
      i := i + 1;
    }
    assert expression[..i] == expression;
  }

  /** `add_furigana` as written, producing the annotated string directly. */
  method AddFuriganaLoop(expression: string, reading: string) returns (out: string)
    ensures out == AddFurigana(expression, reading)
  {
    var anyKanji := AnyKanji(expression);
    if !anyKanji {
      return reading;
    }
    var segs := SplitReading(reading);
    out := WalkLoop(expression, segs);
  }

  // ---------------------------------------------------------------------
  // Worked examples

  /** A reading made only of kana is cut into one segment per character. */
  lemma {:induction false} AllKanaSegments(r: string)
    requires forall i :: 0 <= i < |r| ==> IsKana(r[i])
    ensures Segments(r) == seq(|r|, i requires 0 <= i < |r| => [r[i]])
  {
    if |r| > 0 {
      var front := r[..|r| - 1];
      AllKanaSegments(front);
      assert r == front + [r[|r| - 1]];
      SegmentsSnoc(front, r[|r| - 1]);
    }
  }

  lemma WalkTaberu(segs: seq<string>)
    requires segs == ["た", "べ", "る"]
    ensures Walk("食べる", segs).0 == [Ruby('食', "た"), Bare('べ'), Bare('る')]
  {
    assert IsKanji('食') && !IsKanji('べ') && !IsKanji('る');
    assert [] + ['食'] == "食" && "食" + ['べ'] == "食べ" && "食べ" + ['る'] == "食べる";
    WalkSnoc([], '食', segs);
    WalkSnoc("食", 'べ', segs);
    WalkSnoc("食べ", 'る', segs);
  }

  lemma WalkTabemono(segs: seq<string>)
    requires segs == ["た", "べ", "も", "の"]
    ensures Walk("食べ物", segs).0 == [Ruby('食', "た"), Bare('べ'), Ruby('物', "も")]
  {
    assert IsKanji('食') && !IsKanji('べ') && IsKanji('物');
    assert [] + ['食'] == "食" && "食" + ['べ'] == "食べ" && "食べ" + ['物'] == "食べ物";
    WalkSnoc([], '食', segs);
    WalkSnoc("食", 'べ', segs);
    WalkSnoc("食べ", '物', segs);
  }

  lemma Render3(p0: Piece, p1: Piece, p2: Piece)
    ensures Render([p0, p1, p2]) == RenderPiece(p0) + RenderPiece(p1) + RenderPiece(p2)
  {
    assert Render([p0]) == RenderPiece(p0) by {
      assert [p0][..0] == [];
    }
    assert Render([p0, p1]) == Render([p0]) + RenderPiece(p1) by {
      assert [p0, p1][..1] == [p0];
    }
    assert Render([p0, p1, p2]) == Render([p0, p1]) + RenderPiece(p2) by {
      assert [p0, p1, p2][..2] == [p0, p1];
    }
  }

  /** An all-kana reading is cut into single characters. */
  lemma SegmentsTaberu()
    ensures Segments("たべる") == ["た", "べ", "る"]
  {
    AllKanaSegments("たべる");
  }

  lemma SegmentsTabemono()
    ensures Segments("たべもの") == ["た", "べ", "も", "の"]
  {
    AllKanaSegments("たべもの");
  }

  /** The text of the pieces for 食べる. */
  lemma RenderTaberu()
    ensures Render([Ruby('食', "た"), Bare('べ'), Bare('る')]) == "食[た]べる"
  {
    Render3(Ruby('食', "た"), Bare('べ'), Bare('る'));
    assert RenderPiece(Ruby('食', "た")) == "食[た]";
  }

  /** The text of the pieces for 食べ物. */
  lemma RenderTabemono()
    ensures Render([Ruby('食', "た"), Bare('べ'), Ruby('物', "も")]) == "食[た]べ物[も]"
  {
    Render3(Ruby('食', "た"), Bare('べ'), Ruby('物', "も"));
    assert RenderPiece(Ruby('食', "た")) == "食[た]";
    assert RenderPiece(Ruby('物', "も")) == "物[も]";
  }

  /** The documented example: 食べる read たべる becomes 食[た]べる. */
  lemma ExampleTaberu()
    ensures AddFurigana("食べる", "たべる") == "食[た]べる"
  {
    assert IsKanji("食べる"[0]);
    SegmentsTaberu();
    WalkTaberu(Segments("たべる"));
    RenderTaberu();
  }

  /**
   * 食べ物 read たべもの becomes 食[た]べ物[も]: each kanji takes one kana
   * segment, so 物 is glossed with も alone and the trailing の is not emitted.
   */
  lemma ExampleTabemono()
    ensures AddFurigana("食べ物", "たべもの") == "食[た]べ物[も]"
  {
    assert IsKanji("食べ物"[0]);
    SegmentsTabemono();
    WalkTabemono(Segments("たべもの"));
    RenderTabemono();
  }
}

=== FILE: pystr.dfy ===
/**
 * The few pieces of Python's `str` behaviour the importer relies on:
 * `isspace`, `strip`, `split` on a single character, `join`, and the
 * substring test `s in t`. Strings are sequences of Unicode scalar values.
 */
module PyStr {

  /** Python's `str.isspace()` for a single character. */
  predicate IsSpace(c: char)
  {
    || ('\t' <= c <= '\r')
    || ('\U{1C}' <= c <= '\U{1F}')
    || c == ' '
    || c == '\U{85}'
    || c == '\U{A0}'
    || c == '\U{1680}'
    || ('\U{2000}' <= c <= '\U{200A}')
    || c == '\U{2028}'
    || c == '\U{2029}'
    || c == '\U{202F}'
    || c == '\U{205F}'
    || c == '\U{3000}'
  }

  predicate AllSpace(s: string)
  {
    forall i :: 0 <= i < |s| ==> IsSpace(s[i])
  }

  /** A string that `strip` leaves alone: no white space at either end. */
  predicate Trimmed(s: string)
  {
    s == [] || (!IsSpace(s[0]) && !IsSpace(s[|s| - 1]))
  }

  /** `str.lstrip()`: the suffix that starts at the first non-space character. */
  function TrimStart(s: string): (r: string)
    ensures |r| <= |s| && r == s[|s| - |r|..]
  {
    if |s| > 0 && IsSpace(s[0]) then TrimStart(s[1..]) else s
  }

  /** What `lstrip` returns does not start with white space. */
  lemma {:induction false} TrimStartNoSpace(s: string)
    ensures TrimStart(s) == [] || !IsSpace(TrimStart(s)[0])
  {
    if |s| > 0 && IsSpace(s[0]) {
      TrimStartNoSpace(s[1..]);
    }
  }

  /** `str.rstrip()`: the prefix that ends at the last non-space character. */
  function TrimEnd(s: string): (r: string)
    ensures |r| <= |s| && r == s[..|r|]
  {
    if |s| > 0 && IsSpace(s[|s| - 1]) then TrimEnd(s[..|s| - 1]) else s
  }

  /** What `rstrip` returns does not end with white space. */
  lemma {:induction false} TrimEndNoSpace(s: string)
    ensures TrimEnd(s) == [] || !IsSpace(TrimEnd(s)[|TrimEnd(s)| - 1])
  {
    if |s| > 0 && IsSpace(s[|s| - 1]) {
      TrimEndNoSpace(s[..|s| - 1]);
    }
  }

  /** `lstrip` drops white space and nothing else. */
  lemma {:induction false} TrimStartDropsSpace(s: string)
    ensures AllSpace(s[..|s| - |TrimStart(s)|])
  {
    if |s| > 0 && IsSpace(s[0]) {
      TrimStartDropsSpace(s[1..]);
      var k := |s| - |TrimStart(s)|;
      assert s[..k] == [s[0]] + s[1..][..k - 1];
    }
  }

  /** `rstrip` drops white space and nothing else. */
  lemma {:induction false} TrimEndDropsSpace(s: string)
    ensures AllSpace(s[|TrimEnd(s)|..])
  {
    if |s| > 0 && IsSpace(s[|s| - 1]) {
      var front := s[..|s| - 1];
      TrimEndDropsSpace(front);
      assert s[|TrimEnd(s)|..] == front[|TrimEnd(front)|..] + [s[|s| - 1]];
    }
  }

  /** `str.strip()`. */
  function Strip(s: string): (r: string)
    ensures |r| <= |s|
  {
    TrimEnd(TrimStart(s))
  }

  /** What `strip` returns has no white space at either end. */
  lemma StripIsTrimmed(s: string)
    ensures Trimmed(Strip(s))
  {
    var t := TrimStart(s);
    var r := TrimEnd(t);
    TrimStartNoSpace(s);
    TrimEndNoSpace(t);
    assert r != [] ==> r[0] == t[0];
  }

  /** A string with no white space at either end is its own `strip`. */
  lemma StripKeepsTrimmed(s: string)
    requires Trimmed(s)
    ensures Strip(s) == s
  {
    assert [] + s == s && s + [] == s;
    TrimStartSpaces([], s);
    TrimEndSpaces(s, []);
  }

  /** How much leading white space `strip` removes. */
  function LeadingSpace(s: string): nat
  {
    |s| - |TrimStart(s)|
  }

  /** `strip` removes white space only: the input is the result wrapped in white space. */
  lemma StripDecomposes(s: string)
    ensures LeadingSpace(s) + |Strip(s)| <= |s|
    ensures s[LeadingSpace(s)..LeadingSpace(s) + |Strip(s)|] == Strip(s)
    ensures AllSpace(s[..LeadingSpace(s)])
    ensures AllSpace(s[LeadingSpace(s) + |Strip(s)|..])
  {
    var t := TrimStart(s);
    var r := TrimEnd(t);
    var i := LeadingSpace(s);
    TrimStartDropsSpace(s);
    TrimEndDropsSpace(t);
    assert i + |r| <= |s| && s[i..] == t && r == t[..|r|];
    assert s[i..i + |r|] == r by {
      SliceOfSuffix(s, i, |r|);
    }
    assert AllSpace(s[i + |r|..]) by {
      assert s[i + |r|..] == t[|r|..];
    }
  }

  lemma SliceOfSuffix(s: string, i: nat, n: nat)
    requires i + n <= |s|
    ensures s[i..i + n] == s[i..][..n]
  {
  }

  lemma {:induction false} TrimStartSpaces(pre: string, t: string)
    requires AllSpace(pre)
    requires t == [] || !IsSpace(t[0])
    ensures TrimStart(pre + t) == t
    decreases |pre|
  {
    if |pre| > 0 {
      var s := pre + t;
      assert s[0] == pre[0] && IsSpace(s[0]);
      assert s[1..] == pre[1..] + t;
      assert AllSpace(pre[1..]);
      TrimStartSpaces(pre[1..], t);
    } else {
      assert pre + t == t;
    }
  }

  lemma {:induction false} TrimEndSpaces(t: string, post: string)
    requires AllSpace(post)
    requires t == [] || !IsSpace(t[|t| - 1])
    ensures TrimEnd(t + post) == t
    decreases |post|
  {
    if |post| > 0 {
      var s, n := t + post, |post| - 1;
      assert IsSpace(s[|s| - 1]) by {
        assert s[|s| - 1] == post[n];
      }
      assert TrimEnd(s) == TrimEnd(t + post[..n]) by {
        assert s[..|s| - 1] == t + post[..n];
      }
      assert AllSpace(post[..n]) by {
        assert forall i :: 0 <= i < n ==> post[..n][i] == post[i];
      }
      TrimEndSpaces(t, post[..n]);
    } else {
      assert t + post == t;
    }
  }

  /**
   * The partner of `StripDecomposes`: wrapping a trimmed string in any white
   * space and stripping gives it back, so `strip` is the only such decomposition.
   */
  lemma {:induction false} StripUnwraps(pre: string, core: string, post: string)
    requires AllSpace(pre) && AllSpace(post) && Trimmed(core)
    ensures Strip(pre + core + post) == core
  {
    if core == [] {
      assert pre + core + post == pre + post;
      assert AllSpace(pre + post);
      TrimStartSpaces(pre + post, []);
      assert pre + post + [] == pre + post;
      TrimEndSpaces([], []);
    } else {
      assert pre + core + post == pre + (core + post);
      TrimStartSpaces(pre, core + post);
      TrimEndSpaces(core, post);
    }
  }

  /** `strip` is idempotent. */
  lemma StripIdempotent(s: string)
    ensures Strip(Strip(s)) == Strip(s)
  {
    StripIsTrimmed(s);
    StripKeepsTrimmed(Strip(s));
  }

  /** `s.split(sep)` for a one-character separator: always at least one piece. */
  function Split(s: string, sep: char): (r: seq<string>)
    ensures |r| >= 1
  {
    if |s| == 0 then [[]]
    else
      var rest := Split(s[1..], sep);
      if s[0] == sep then [[]] + rest
      else [[s[0]] + rest[0]] + rest[1..]
  }

  /** No piece of a split contains the separator. */
  lemma {:induction false} SplitPiecesOmitSep(s: string, sep: char)
    ensures forall i :: 0 <= i < |Split(s, sep)| ==> sep !in Split(s, sep)[i]
  {
    if |s| > 0 {
      SplitPiecesOmitSep(s[1..], sep);
      var rest := Split(s[1..], sep);
      if s[0] != sep {
        assert sep !in [s[0]] + rest[0];
      }
    }
  }

  /** `sep.join(xs)`. */
  function Join(sep: string, xs: seq<string>): string
  {
    if |xs| == 0 then []
    else if |xs| == 1 then xs[0]
    else xs[0] + sep + Join(sep, xs[1..])
  }

  /** Joining the pieces of a split with the same separator gives the original string back. */
  lemma {:induction false} JoinSplit(s: string, sep: char)
    ensures Join([sep], Split(s, sep)) == s
  {
    if |s| > 0 {
      var rest := Split(s[1..], sep);
      JoinSplit(s[1..], sep);
      if s[0] == sep {
        assert Split(s, sep) == [[]] + rest;
        assert ([[]] + rest)[1..] == rest;
        assert s == [] + [sep] + s[1..];
      } else {
        var r := Split(s, sep);
        assert r == [[s[0]] + rest[0]] + rest[1..];
        if |rest| == 1 {
          assert s == [s[0]] + rest[0];
        } else {
          assert r[1..] == rest[1..];
          assert Join([sep], rest) == rest[0] + [sep] + Join([sep], rest[1..]);
          assert s == [s[0]] + s[1..];
        }
      }
    }
  }

  /** Splitting a join of separator-free pieces gives the pieces back. */
  lemma {:induction false} SplitJoin(xs: seq<string>, sep: char)
    requires |xs| >= 1
    requires forall i :: 0 <= i < |xs| ==> sep !in xs[i]
    ensures Split(Join([sep], xs), sep) == xs
    decreases |xs|, |xs[0]|
  {
    if |xs[0]| == 0 {
      if |xs| == 1 {
      } else {
        var j := Join([sep], xs[1..]);
        SplitJoin(xs[1..], sep);
        assert Join([sep], xs) == [sep] + j;
        assert ([sep] + j)[1..] == j;
      }
    } else {
      var c := xs[0][0];
      var ys := [xs[0][1..]] + xs[1..];
      assert forall i :: 0 <= i < |ys| ==> sep !in ys[i] by {
        forall i | 0 <= i < |ys| ensures sep !in ys[i] {
          if i == 0 {
            assert forall k :: 0 <= k < |xs[0][1..]| ==> xs[0][1..][k] == xs[0][k + 1];
          } else {
            assert ys[i] == xs[i];
          }
        }
      }
      SplitJoin(ys, sep);
      assert ys[1..] == xs[1..];
      assert Join([sep], xs) == [c] + Join([sep], ys) by {
        assert xs[0] == [c] + xs[0][1..];
        if |xs| > 1 {
          assert Join([sep], ys) == ys[0] + [sep] + Join([sep], ys[1..]);
        }
      }
      assert ([c] + Join([sep], ys))[1..] == Join([sep], ys);
      assert c != sep by { assert xs[0][0] in xs[0]; }
      assert [c] + ys[0] == xs[0];
      assert xs == [xs[0]] + xs[1..];
    }
  }

  /** Python's `s in t` on strings: `s` occurs contiguously somewhere in `t`. */
  predicate Contains(t: string, s: string)
  {
    exists i :: 0 <= i <= |t| - |s| && s <= t[i..]
  }

  lemma ContainsInLeft(t: string, u: string, s: string)
    requires Contains(t, s)
    ensures Contains(t + u, s)
  {
    var i :| 0 <= i <= |t| - |s| && s <= t[i..];
    assert (t + u)[i..] == t[i..] + u;
  }

  lemma ContainsInRight(t: string, u: string, s: string)
    requires Contains(u, s)
    ensures Contains(t + u, s)
  {
    var i :| 0 <= i <= |u| - |s| && s <= u[i..];
    assert (t + u)[|t| + i..] == u[i..];
  }

  lemma ContainsSelf(s: string)
    ensures Contains(s, s)
  {
    assert s <= s[0..];
  }

  /** Every joined piece occurs in the joined string. */
  lemma {:induction false} JoinContainsPieces(sep: string, xs: seq<string>, k: nat)
    requires k < |xs|
    ensures Contains(Join(sep, xs), xs[k])
    decreases |xs|
  {
    ContainsSelf(xs[k]);
    if |xs| > 1 {
      if k == 0 {
        ContainsInLeft(xs[0], sep + Join(sep, xs[1..]), xs[0]);
        assert xs[0] + sep + Join(sep, xs[1..]) == xs[0] + (sep + Join(sep, xs[1..]));
      } else {
        JoinContainsPieces(sep, xs[1..], k - 1);
        ContainsInRight(xs[0] + sep, Join(sep, xs[1..]), xs[k]);
      }
    }
  }
}

=== FILE: review.dfy ===
/**
 * `review_card`: the ease must lie between 1 and 4, and this is checked
 * before the collection is opened; only then is the card looked up and
 * answered. The scheduler is left out: answering a card is recorded as an
 * entry in a log of answers.
 */
module Review {
  import opened Wrappers

  datatype ReviewError = InvalidEase(ease: int) | CardNotFound(card: int)

  /** One answer handed to the scheduler. */
  datatype Answer = Answer(card: int, ease: int)

  /** The eases the scheduler accepts: again, hard, good, easy. */
  predicate ValidEase(ease: int)
  {
    1 <= ease <= 4
  }

  /** Review `card` with `ease`, given the ids of the cards in the collection and the answers so far. */
  function ReviewCard(cards: set<int>, answers: seq<Answer>, card: int, ease: int): (r: Result<seq<Answer>, ReviewError>)
    ensures r.Success? <==> ValidEase(ease) && card in cards
    ensures r.Success? ==> r.value == answers + [Answer(card, ease)]
  {
    if !(1 <= ease <= 4) then Failure(InvalidEase(ease))
    else if card !in cards then Failure(CardNotFound(card))
    else Success(answers + [Answer(card, ease)])
  }

  /** An ease outside 1..4 is refused whatever the card and whatever the collection holds. */
  lemma EaseCheckedFirst(cards: set<int>, cards2: set<int>, answers: seq<Answer>, answers2: seq<Answer>,
                         card: int, card2: int, ease: int)
    requires !ValidEase(ease)
    ensures ReviewCard(cards, answers, card, ease) == ReviewCard(cards2, answers2, card2, ease)
         == Failure(InvalidEase(ease))
  {
  }

  /** A sequence of review requests; a refused request leaves the log as it was. */
  function ReviewAll(cards: set<int>, answers: seq<Answer>, requests: seq<(int, int)>): (log: seq<Answer>)
    ensures answers <= log
    ensures |log| <= |answers| + |requests|
    decreases |requests|
  {
    if requests == [] then answers
    else
      var n := |requests| - 1;
      var before := ReviewAll(cards, answers, requests[..n]);
      match ReviewCard(cards, before, requests[n].0, requests[n].1)
      case Success(after) => after
      case Failure(_) => before
  }

  /** Every answer that reaches the scheduler has an ease between 1 and 4 and a card of the collection. */
  lemma {:induction false} ReviewAllValid(cards: set<int>, answers: seq<Answer>, requests: seq<(int, int)>)
    requires forall i :: 0 <= i < |answers| ==> ValidEase(answers[i].ease) && answers[i].card in cards
    ensures var log := ReviewAll(cards, answers, requests);
            answers <= log && forall i :: 0 <= i < |log| ==> ValidEase(log[i].ease) && log[i].card in cards
    decreases |requests|
  {
    if requests != [] {
      ReviewAllValid(cards, answers, requests[..|requests| - 1]);
    }
  }
}

=== FILE: sentences.dfy ===
/**
 * `update_notes_with_sentences`: for each vocabulary item, append sample
 * sentences to the reading field (the third field) of the notes whose
 * expression (first field) is that item, leaving out the sentences the
 * reading already contains.
 */
module SentenceMerge {
  import opened Wrappers
  import opened PyStr
  import opened Anki

  /** The text placed between two appended sentences. */
  const Separator := "<br>- "

  /** The deck searched when the caller names none. */
  const DefaultDeck := "Try! N3 Vocab"

  /** The sentences the reading does not already contain, in their given order. */
  function NewSentences(reading: string, sentences: seq<string>): (kept: seq<string>)
    ensures |kept| <= |sentences|
    ensures forall s :: s in kept <==> s in sentences && !Contains(reading, s)
    decreases |sentences|
  {
    if sentences == [] then []
    else
      var n := |sentences| - 1;
      var before := NewSentences(reading, sentences[..n]);
      assert forall s :: s in sentences <==> s in sentences[..n] || s == sentences[n] by {
        assert sentences == sentences[..n] + [sentences[n]];
      }
      before + (if Contains(reading, sentences[n]) then [] else [sentences[n]])
  }

  /**
   * The reading after appending: `None` when every sentence is already in it,
   * otherwise the current reading, a blank line, and the new sentences joined
   * by the separator.
   */
  function MergeReading(current: string, sentences: seq<string>): (r: Option<string>)
    ensures r.None? <==> forall s :: s in sentences ==> Contains(current, s)
    ensures r.Some? ==> current + "\n\n" <= r.value
  {
    var kept := NewSentences(current, sentences);
    if kept == [] then None
    else
      assert kept[0] in kept;
      Some(current + "\n\n" + Join(Separator, kept))
  }

  /** After appending, the reading contains every sentence, old or new. */
  lemma MergeContainsAll(current: string, sentences: seq<string>, s: string)
    requires MergeReading(current, sentences).Some? && s in sentences
    ensures Contains(MergeReading(current, sentences).value, s)
  {
    var kept := NewSentences(current, sentences);
    var joined := Join(Separator, kept);
    assert MergeReading(current, sentences).value == current + ("\n\n" + joined);
    if Contains(current, s) {
      ContainsInLeft(current, "\n\n" + joined, s);
    } else {
      var k :| 0 <= k < |kept| && kept[k] == s;
      JoinContainsPieces(Separator, kept, k);
      ContainsInRight("\n\n", joined, s);
      ContainsInRight(current, "\n\n" + joined, s);
    }
  }

  /** Appending the same sentences a second time changes nothing. */
  lemma MergeIdempotent(current: string, sentences: seq<string>)
    requires MergeReading(current, sentences).Some?
    ensures MergeReading(MergeReading(current, sentences).value, sentences).None?
  {
    forall s | s in sentences ensures Contains(MergeReading(current, sentences).value, s) {
      MergeContainsAll(current, sentences, s);
    }
  }

  /** An empty sentence is contained in every reading, so it is never appended. */
  lemma EmptySentenceNeverKept(current: string, sentences: seq<string>)
    ensures "" !in NewSentences(current, sentences)
  {
    assert "" <= current[0..];
  }

  /** A single sentence is kept exactly when the reading does not contain it. */
  lemma NewSentencesSingle(reading: string, s: string)
    ensures NewSentences(reading, [s]) == if Contains(reading, s) then [] else [s]
  {
    assert [s][..0] == [];
  }

  /** Filtering one more sentence appends it exactly when it is new. */
  lemma NewSentencesSnoc(reading: string, xs: seq<string>, x: string)
    ensures NewSentences(reading, xs + [x]) == NewSentences(reading, xs) + (if Contains(reading, x) then [] else [x])
  {
    assert (xs + [x])[..|xs|] == xs;
  }

  /**
   * The filter works sentence by sentence: the sentences kept from a
   * concatenation are those kept from each part, in the same order.
   */
  lemma {:induction false} NewSentencesAppend(reading: string, a: seq<string>, b: seq<string>)
    ensures NewSentences(reading, a + b) == NewSentences(reading, a) + NewSentences(reading, b)
    decreases |b|
  {
    if b == [] {
      assert a + b == a;
    } else {
      var n := |b| - 1;
      var last := if Contains(reading, b[n]) then [] else [b[n]];
      assert a + b == (a + b[..n]) + [b[n]];
      assert b == b[..n] + [b[n]];
      NewSentencesSnoc(reading, a + b[..n], b[n]);
      NewSentencesSnoc(reading, b[..n], b[n]);
      NewSentencesAppend(reading, a, b[..n]);
      var x, y := NewSentences(reading, a), NewSentences(reading, b[..n]);
      ConcatAssoc(x, y, last);
    }
  }

  lemma ConcatAssoc<T>(x: seq<T>, y: seq<T>, z: seq<T>)
    ensures x + y + z == x + (y + z)
  {
  }

  // ---------------------------------------------------------------------
  // One vocabulary item over the notes the search found

  /** A note that has a reading field. */
  predicate HasReading(n: Note)
  {
    |n.fields| >= 3
  }

  /** Every found note exists and has a reading field. */
  predicate Readable(notes: map<NoteId, Note>, ids: seq<NoteId>)
  {
    forall i :: 0 <= i < |ids| ==> ids[i] in notes && HasReading(notes[ids[i]])
  }

  /** The same note except, possibly, for its reading. */
  predicate SameButReading(a: Note, b: Note)
  {
    |b.fields| == |a.fields| && b.tags == a.tags
    && forall j :: 0 <= j < |a.fields| && j != 2 ==> b.fields[j] == a.fields[j]
  }

  /** The same notes, each unchanged except possibly for its reading. */
  predicate OnlyReadings(a: map<NoteId, Note>, b: map<NoteId, Note>)
  {
    a.Keys == b.Keys && forall id :: id in a ==> SameButReading(a[id], b[id])
  }

  /** The notes, the running count of updated notes, and whether this item updated one. */
  datatype Pass = Pass(notes: map<NoteId, Note>, updated: nat, touched: bool)

  /**
   * One found note: appended to when its expression is the item and a sentence
   * is new; each note that changes is counted once and marks the item updated.
   */
  function VisitNote(vocab: string, sentences: seq<string>, p: Pass, id: NoteId): (r: Pass)
    requires id in p.notes && HasReading(p.notes[id])
    ensures OnlyReadings(p.notes, r.notes)
    ensures r.notes != p.notes <==> Matches(p.notes[id], vocab) && !Filled(p.notes, id, sentences)
    ensures r.updated == p.updated + (if r.notes == p.notes then 0 else 1)
    ensures r.touched == (p.touched || r.notes != p.notes)
  {
    var note := p.notes[id];
    if note.fields[0] != vocab then p
    else
      match MergeReading(note.fields[2], sentences)
      case None => p
      case Some(reading) =>
        var notes := p.notes[id := note.(fields := note.fields[2 := reading])];
        assert |notes[id].fields[2]| > |note.fields[2]|;
        Pass(notes, p.updated + 1, true)
  }

  lemma OnlyReadingsTrans(a: map<NoteId, Note>, b: map<NoteId, Note>, c: map<NoteId, Note>)
    requires OnlyReadings(a, b) && OnlyReadings(b, c)
    ensures OnlyReadings(a, c)
  {
    forall id | id in a ensures SameButReading(a[id], c[id]) {
      assert SameButReading(a[id], b[id]) && SameButReading(b[id], c[id]);
    }
  }

  lemma ReadableKept(a: map<NoteId, Note>, b: map<NoteId, Note>, ids: seq<NoteId>)
    requires Readable(a, ids) && OnlyReadings(a, b)
    ensures Readable(b, ids)
  {
    forall i | 0 <= i < |ids| ensures ids[i] in b && HasReading(b[ids[i]]) {
      assert SameButReading(a[ids[i]], b[ids[i]]);
    }
  }

  /** The inner loop of `update_notes_with_sentences` over the found notes, in order. */
  function UpdateVocab(vocab: string, sentences: seq<string>, p: Pass, ids: seq<NoteId>): (r: Pass)
    requires Readable(p.notes, ids)
    ensures OnlyReadings(p.notes, r.notes)
    ensures r.updated >= p.updated
    decreases |ids|
  {
    if ids == [] then
      assert OnlyReadings(p.notes, p.notes);
      p
    else
      var n := |ids| - 1;
      assert Readable(p.notes, ids[..n]) by {
        forall i | 0 <= i < n ensures ids[..n][i] == ids[i] {}
      }
      var mid := UpdateVocab(vocab, sentences, p, ids[..n]);
      ReadableKept(p.notes, mid.notes, ids);
      var r := VisitNote(vocab, sentences, mid, ids[n]);
      OnlyReadingsTrans(p.notes, mid.notes, r.notes);
      r
  }

  /** A note whose expression is the vocabulary item. */
  predicate Matches(n: Note, vocab: string)
  {
    |n.fields| >= 1 && n.fields[0] == vocab
  }

  /** A note whose reading contains every one of the sentences. */
  predicate Filled(notes: map<NoteId, Note>, id: NoteId, sentences: seq<string>)
  {
    id in notes && HasReading(notes[id]) && forall s :: s in sentences ==> Contains(notes[id].fields[2], s)
  }

  /** The found note at position `i`, if it matches the item, contains every sentence. */
  predicate FilledAt(notes: map<NoteId, Note>, ids: seq<NoteId>, i: nat, vocab: string, sentences: seq<string>)
    requires i < |ids| && Readable(notes, ids)
  {
    Matches(notes[ids[i]], vocab) ==> Filled(notes, ids[i], sentences)
  }

  /** Visiting a note leaves every other note, and a note of another item, as it was. */
  lemma VisitLeavesOthers(vocab: string, sentences: seq<string>, p: Pass, visited: NoteId, id: NoteId)
    requires visited in p.notes && HasReading(p.notes[visited]) && id in p.notes
    requires id != visited || !Matches(p.notes[id], vocab)
    ensures VisitNote(vocab, sentences, p, visited).notes[id] == p.notes[id]
  {
  }

  lemma ReadableFront(notes: map<NoteId, Note>, ids: seq<NoteId>, n: nat)
    requires Readable(notes, ids) && n <= |ids|
    ensures Readable(notes, ids[..n])
  {
    forall i | 0 <= i < n ensures ids[..n][i] == ids[i] {}
  }

  /** A note the search did not find, or whose expression is another item, is left as it was. */
  lemma {:induction false} UpdateVocabLeavesOthers(vocab: string, sentences: seq<string>, p: Pass, ids: seq<NoteId>, id: NoteId)
    requires Readable(p.notes, ids) && id in p.notes
    requires id !in ids || !Matches(p.notes[id], vocab)
    ensures UpdateVocab(vocab, sentences, p, ids).notes[id] == p.notes[id]
    decreases |ids|
  {
    if ids != [] {
      var n := |ids| - 1;
      ReadableFront(p.notes, ids, n);
      assert id in ids[..n] ==> id in ids;
      UpdateVocabLeavesOthers(vocab, sentences, p, ids[..n], id);
      var mid := UpdateVocab(vocab, sentences, p, ids[..n]);
      ReadableKept(p.notes, mid.notes, ids);
      VisitLeavesOthers(vocab, sentences, mid, ids[n], id);
    }
  }

  /** The item is reported as updated exactly when one of its notes was counted and changed. */
  lemma {:induction false} UpdateVocabTouched(vocab: string, sentences: seq<string>, p: Pass, ids: seq<NoteId>)
    requires Readable(p.notes, ids)
    ensures UpdateVocab(vocab, sentences, p, ids).touched <==> p.touched || UpdateVocab(vocab, sentences, p, ids).updated > p.updated
    ensures UpdateVocab(vocab, sentences, p, ids).touched <==> p.touched || UpdateVocab(vocab, sentences, p, ids).notes != p.notes
    decreases |ids|
  {
    UpdateVocabCount(vocab, sentences, p, ids);
    UpdateVocabChanges(vocab, sentences, p, ids);
    if ids != [] {
      var n := |ids| - 1;
      assert Readable(p.notes, ids[..n]) by {
        forall i | 0 <= i < n ensures ids[..n][i] == ids[i] {}
      }
      UpdateVocabTouched(vocab, sentences, p, ids[..n]);
    }
  }

  /** Appending keeps what the reading already contained. */
  lemma VisitKeepsFilled(vocab: string, sentences: seq<string>, p: Pass, id: NoteId, other: NoteId, others: seq<string>)
    requires id in p.notes && HasReading(p.notes[id])
    requires Filled(p.notes, other, others)
    ensures Filled(VisitNote(vocab, sentences, p, id).notes, other, others)
  {
    var r := VisitNote(vocab, sentences, p, id);
    if other == id && r != p {
      var reading := MergeReading(p.notes[id].fields[2], sentences).value;
      assert r.notes[id].fields[2] == reading;
      forall s | s in others ensures Contains(reading, s) {
        var rest := reading[|p.notes[id].fields[2]|..];
        assert reading == p.notes[id].fields[2] + rest;
        ContainsInLeft(p.notes[id].fields[2], rest, s);
      }
    }
  }

  /** Visiting a matching note leaves it containing every sentence. */
  lemma VisitFills(vocab: string, sentences: seq<string>, p: Pass, id: NoteId)
    requires id in p.notes && HasReading(p.notes[id]) && Matches(p.notes[id], vocab)
    ensures Filled(VisitNote(vocab, sentences, p, id).notes, id, sentences)
  {
    var r := VisitNote(vocab, sentences, p, id);
    var current := p.notes[id].fields[2];
    if MergeReading(current, sentences).Some? {
      forall s | s in sentences ensures Contains(r.notes[id].fields[2], s) {
        MergeContainsAll(current, sentences, s);
      }
    }
  }

  /** One step of the pass keeps every earlier matching note filled and fills the visited one. */
  lemma FillsStep(vocab: string, sentences: seq<string>, mid: Pass, ids: seq<NoteId>, i: nat)
    requires ids != [] && Readable(mid.notes, ids) && i < |ids|
    requires i < |ids| - 1 ==> Readable(mid.notes, ids[..|ids| - 1]) && FilledAt(mid.notes, ids[..|ids| - 1], i, vocab, sentences)
    ensures var r := VisitNote(vocab, sentences, mid, ids[|ids| - 1]);
            Readable(r.notes, ids) && FilledAt(r.notes, ids, i, vocab, sentences)
  {
    var n := |ids| - 1;
    var r := VisitNote(vocab, sentences, mid, ids[n]);
    ReadableKept(mid.notes, r.notes, ids);
    assert SameButReading(mid.notes[ids[i]], r.notes[ids[i]]);
    if Matches(mid.notes[ids[i]], vocab) {
      if i < n {
        assert ids[..n][i] == ids[i];
        VisitKeepsFilled(vocab, sentences, mid, ids[n], ids[i], sentences);
      } else {
        VisitFills(vocab, sentences, mid, ids[n]);
      }
    }
  }

  /** After the pass, every found note whose expression is the item contains every sentence. */
  lemma {:induction false} UpdateVocabFills(vocab: string, sentences: seq<string>, p: Pass, ids: seq<NoteId>)
    requires Readable(p.notes, ids)
    ensures var r := UpdateVocab(vocab, sentences, p, ids);
            Readable(r.notes, ids) && forall i :: 0 <= i < |ids| ==> FilledAt(r.notes, ids, i, vocab, sentences)
    decreases |ids|
  {
    var r := UpdateVocab(vocab, sentences, p, ids);
    ReadableKept(p.notes, r.notes, ids);
    if ids != [] {
      var n := |ids| - 1;
      ReadableFront(p.notes, ids, n);
      var mid := UpdateVocab(vocab, sentences, p, ids[..n]);
      UpdateVocabFills(vocab, sentences, p, ids[..n]);
      ReadableKept(p.notes, mid.notes, ids);
      assert r == VisitNote(vocab, sentences, mid, ids[n]);
      forall i | 0 <= i < |ids| ensures FilledAt(r.notes, ids, i, vocab, sentences) {
        FillsStep(vocab, sentences, mid, ids, i);
      }
    }
  }

  /** When every matching found note already contains every sentence, the pass changes nothing. */
  lemma {:induction false} UpdateVocabStable(vocab: string, sentences: seq<string>, p: Pass, ids: seq<NoteId>)
    requires Readable(p.notes, ids)
    requires forall i :: 0 <= i < |ids| ==> FilledAt(p.notes, ids, i, vocab, sentences)
    ensures UpdateVocab(vocab, sentences, p, ids) == p
    decreases |ids|
  {
    if ids != [] {
      var n := |ids| - 1;
      var front := ids[..n];
      ReadableFront(p.notes, ids, n);
      forall i | 0 <= i < n ensures FilledAt(p.notes, front, i, vocab, sentences) {
        assert front[i] == ids[i];
        assert FilledAt(p.notes, ids, i, vocab, sentences);
      }
      UpdateVocabStable(vocab, sentences, p, front);
      assert FilledAt(p.notes, ids, n, vocab, sentences);
      assert UpdateVocab(vocab, sentences, p, ids) == VisitNote(vocab, sentences, p, ids[n]);
    }
  }

  /** The found notes whose expression is the item and whose reading lacks one of the sentences. */
  function Unfilled(notes: map<NoteId, Note>, ids: seq<NoteId>, vocab: string, sentences: seq<string>): set<NoteId>
  {
    set id | id in ids && id in notes && Matches(notes[id], vocab) && !Filled(notes, id, sentences)
  }

  lemma UnfilledSnoc(notes: map<NoteId, Note>, front: seq<NoteId>, x: NoteId, vocab: string, sentences: seq<string>)
    ensures |Unfilled(notes, front + [x], vocab, sentences)| == |Unfilled(notes, front, vocab, sentences)|
              + (if x !in front && x in notes && Matches(notes[x], vocab) && !Filled(notes, x, sentences) then 1 else 0)
  {
    var before := Unfilled(notes, front, vocab, sentences);
    if x !in front && x in notes && Matches(notes[x], vocab) && !Filled(notes, x, sentences) {
      assert Unfilled(notes, front + [x], vocab, sentences) == before + {x};
    } else {
      assert Unfilled(notes, front + [x], vocab, sentences) == before;
    }
  }

  /** The last visit counts its note when no earlier visit saw it and it lacked a sentence. */
  lemma LastVisitCount(vocab: string, sentences: seq<string>, p: Pass, ids: seq<NoteId>)
    requires Readable(p.notes, ids) && ids != []
    ensures var n := |ids| - 1;
            var x := ids[n];
            Readable(p.notes, ids[..n])
            && UpdateVocab(vocab, sentences, p, ids).updated
               == UpdateVocab(vocab, sentences, p, ids[..n]).updated
                  + (if x !in ids[..n] && Matches(p.notes[x], vocab) && !Filled(p.notes, x, sentences) then 1 else 0)
  {
    var n := |ids| - 1;
    var front, x := ids[..n], ids[n];
    ReadableFront(p.notes, ids, n);
    var mid := UpdateVocab(vocab, sentences, p, front);
    ReadableKept(p.notes, mid.notes, ids);
    assert UpdateVocab(vocab, sentences, p, ids) == VisitNote(vocab, sentences, mid, x);
    if x in front {
      var k :| 0 <= k < n && front[k] == x;
      UpdateVocabFills(vocab, sentences, p, front);
      assert FilledAt(mid.notes, front, k, vocab, sentences);
    } else {
      UpdateVocabLeavesOthers(vocab, sentences, p, front, x);
    }
  }

  /** The pass counts each such note once, however often the search lists it. */
  lemma {:induction false} UpdateVocabCount(vocab: string, sentences: seq<string>, p: Pass, ids: seq<NoteId>)
    requires Readable(p.notes, ids)
    ensures UpdateVocab(vocab, sentences, p, ids).updated == p.updated + |Unfilled(p.notes, ids, vocab, sentences)|
    decreases |ids|
  {
    if ids == [] {
      assert Unfilled(p.notes, ids, vocab, sentences) == {};
    } else {
      var n := |ids| - 1;
      LastVisitCount(vocab, sentences, p, ids);
      UpdateVocabCount(vocab, sentences, p, ids[..n]);
      UnfilledSnoc(p.notes, ids[..n], ids[n], vocab, sentences);
      assert ids == ids[..n] + [ids[n]];
    }
  }

  /** The pass changes the notes exactly when some found note of the item lacked a sentence. */
  lemma UpdateVocabChanges(vocab: string, sentences: seq<string>, p: Pass, ids: seq<NoteId>)
    requires Readable(p.notes, ids)
    ensures UpdateVocab(vocab, sentences, p, ids).notes != p.notes <==> Unfilled(p.notes, ids, vocab, sentences) != {}
  {
    var r := UpdateVocab(vocab, sentences, p, ids);
    var u := Unfilled(p.notes, ids, vocab, sentences);
    if u == {} {
      forall i | 0 <= i < |ids| ensures FilledAt(p.notes, ids, i, vocab, sentences) {
        assert ids[i] !in u;
      }
      UpdateVocabStable(vocab, sentences, p, ids);
    } else {
      var x :| x in u;
      var k :| 0 <= k < |ids| && ids[k] == x;
      UpdateVocabFills(vocab, sentences, p, ids);
      MatchesKept(p.notes, r.notes, x, vocab);
      assert FilledAt(r.notes, ids, k, vocab, sentences);
    }
  }

  // ---------------------------------------------------------------------
  // All vocabulary items

  /**
   * What a run reports: the notes, how many note updates were made, the items
   * no note was found for, and each other item with whether it updated a note.
   */
  datatype Report = Report(notes: map<NoteId, Note>, updated: nat, notFound: seq<string>, results: seq<(string, bool)>)

  /** The notes the search finds for an item; the search itself is given as data. */
  function Found(hits: map<string, seq<NoteId>>, vocab: string): seq<NoteId>
  {
    if vocab in hits then hits[vocab] else []
  }

  /** Every note any search finds exists and has a reading field. */
  predicate HitsReadable(notes: map<NoteId, Note>, hits: map<string, seq<NoteId>>)
  {
    forall v :: v in hits ==> Readable(notes, hits[v])
  }

  lemma HitsReadableKept(a: map<NoteId, Note>, b: map<NoteId, Note>, hits: map<string, seq<NoteId>>)
    requires HitsReadable(a, hits) && OnlyReadings(a, b)
    ensures HitsReadable(b, hits)
  {
    forall v | v in hits ensures Readable(b, hits[v]) {
      ReadableKept(a, b, hits[v]);
    }
  }

  /** The outer loop of `update_notes_with_sentences` over the items, in order. */
  function UpdateAll(items: seq<(string, seq<string>)>, hits: map<string, seq<NoteId>>, notes: map<NoteId, Note>): (r: Report)
    requires HitsReadable(notes, hits)
    ensures OnlyReadings(notes, r.notes)
    ensures |r.notFound| + |r.results| == |items|
    decreases |items|
  {
    if items == [] then
      assert OnlyReadings(notes, notes);
      Report(notes, 0, [], [])
    else
      var n := |items| - 1;
      var prev := UpdateAll(items[..n], hits, notes);
      var vocab := items[n].0;
      var ids := Found(hits, vocab);
      if ids == [] then prev.(notFound := prev.notFound + [vocab])
      else
        HitsReadableKept(notes, prev.notes, hits);
        var p := UpdateVocab(vocab, items[n].1, Pass(prev.notes, prev.updated, false), ids);
        OnlyReadingsTrans(notes, prev.notes, p.notes);
        Report(p.notes, p.updated, prev.notFound, prev.results + [(vocab, p.touched)])
  }

  datatype SentenceError = NoteTypeMissing | DeckMissing(deck: string)

  /**
   * `update_notes_with_sentences`: the note type is looked up before the
   * deck; `hits` stands for the search for each item in the deck.
   */
  function UpdateNotesWithSentences(col: Collection, items: seq<(string, seq<string>)>, deck: string,
                                    hits: map<string, seq<NoteId>>): (r: Result<Report, SentenceError>)
    requires HitsReadable(col.notes, hits)
    ensures r.Success? <==> JapaneseNoteType in col.noteTypes && deck in col.decks
    ensures r.Success? ==> OnlyReadings(col.notes, r.value.notes)
  {
    if JapaneseNoteType !in col.noteTypes then Failure(NoteTypeMissing)
    else if deck !in col.decks then Failure(DeckMissing(deck))
    else Success(UpdateAll(items, hits, col.notes))
  }

  /** The tool called without a deck name searches the default deck. */
  function UpdateNotesInDefaultDeck(col: Collection, items: seq<(string, seq<string>)>,
                                    hits: map<string, seq<NoteId>>): (r: Result<Report, SentenceError>)
    requires HitsReadable(col.notes, hits)
    ensures r.Success? <==> JapaneseNoteType in col.noteTypes && "Try! N3 Vocab" in col.decks
    ensures JapaneseNoteType in col.noteTypes && "Try! N3 Vocab" !in col.decks ==> r == Failure(DeckMissing("Try! N3 Vocab"))
  {
    UpdateNotesWithSentences(col, items, DefaultDeck, hits)
  }

  /** A missing note type is reported whether or not the deck exists. */
  lemma NoteTypeCheckedFirst(col: Collection, items: seq<(string, seq<string>)>, deck: string, deck2: string,
                             hits: map<string, seq<NoteId>>)
    requires HitsReadable(col.notes, hits)
    requires JapaneseNoteType !in col.noteTypes
    ensures UpdateNotesWithSentences(col, items, deck, hits) == UpdateNotesWithSentences(col, items, deck2, hits)
         == Failure(NoteTypeMissing)
  {
  }

  /** An item is reported as not found exactly when the search for it finds nothing. */
  lemma {:induction false} NotFoundExactly(items: seq<(string, seq<string>)>, hits: map<string, seq<NoteId>>, notes: map<NoteId, Note>, v: string)
    requires HitsReadable(notes, hits)
    ensures v in UpdateAll(items, hits, notes).notFound
        <==> Found(hits, v) == [] && exists i :: 0 <= i < |items| && items[i].0 == v
    decreases |items|
  {
    if items != [] {
      var n := |items| - 1;
      NotFoundExactly(items[..n], hits, notes, v);
      if exists i :: 0 <= i < |items| && items[i].0 == v {
        var i :| 0 <= i < |items| && items[i].0 == v;
        if i < n {
          assert items[..n][i] == items[i];
        }
      }
      if exists i :: 0 <= i < n && items[..n][i].0 == v {
        var i :| 0 <= i < n && items[..n][i].0 == v;
        assert items[i] == items[..n][i];
      }
    }
  }

  lemma MatchesKept(a: map<NoteId, Note>, b: map<NoteId, Note>, id: NoteId, v: string)
    requires OnlyReadings(a, b) && id in a
    ensures Matches(a[id], v) == Matches(b[id], v)
  {
    assert SameButReading(a[id], b[id]);
  }

  /** A note whose expression is none of the items is left as it was. */
  lemma {:induction false} UpdateAllLeavesOthers(items: seq<(string, seq<string>)>, hits: map<string, seq<NoteId>>,
                                                  notes: map<NoteId, Note>, id: NoteId)
    requires HitsReadable(notes, hits) && id in notes
    requires forall i :: 0 <= i < |items| ==> !Matches(notes[id], items[i].0)
    ensures UpdateAll(items, hits, notes).notes[id] == notes[id]
    decreases |items|
  {
    if items != [] {
      var n := |items| - 1;
      assert forall i :: 0 <= i < n ==> items[..n][i] == items[i];
      UpdateAllLeavesOthers(items[..n], hits, notes, id);
      var prev := UpdateAll(items[..n], hits, notes);
      var ids := Found(hits, items[n].0);
      if ids != [] {
        HitsReadableKept(notes, prev.notes, hits);
        UpdateVocabLeavesOthers(items[n].0, items[n].1, Pass(prev.notes, prev.updated, false), ids, id);
      }
    }
  }

  /** Every found note whose expression is the item contains all of the item's sentences. */
  predicate ItemFilled(notes: map<NoteId, Note>, hits: map<string, seq<NoteId>>, item: (string, seq<string>))
    requires HitsReadable(notes, hits)
  {
    var ids := Found(hits, item.0);
    forall k :: 0 <= k < |ids| ==> FilledAt(notes, ids, k, item.0, item.1)
  }

  /** No two items share a vocabulary word, as with the keys of a dictionary. */
  predicate DistinctItems(items: seq<(string, seq<string>)>)
  {
    forall i, j :: 0 <= i < j < |items| ==> items[i].0 != items[j].0
  }

  /** A pass over another item keeps an item filled: it touches none of that item's notes. */
  lemma OtherPassKeepsFilled(item: (string, seq<string>), vocab: string, sentences: seq<string>, p: Pass,
                             hits: map<string, seq<NoteId>>)
    requires HitsReadable(p.notes, hits) && ItemFilled(p.notes, hits, item) && item.0 != vocab
    ensures var r := UpdateVocab(vocab, sentences, p, Found(hits, vocab));
            HitsReadable(r.notes, hits) && ItemFilled(r.notes, hits, item)
  {
    var ids := Found(hits, vocab);
    var r := UpdateVocab(vocab, sentences, p, ids);
    HitsReadableKept(p.notes, r.notes, hits);
    var mine := Found(hits, item.0);
    forall k | 0 <= k < |mine| ensures FilledAt(r.notes, mine, k, item.0, item.1) {
      var id := mine[k];
      MatchesKept(p.notes, r.notes, id, item.0);
      if Matches(p.notes[id], item.0) {
        assert FilledAt(p.notes, mine, k, item.0, item.1);
        UpdateVocabLeavesOthers(vocab, sentences, p, ids, id);
      }
    }
  }

  /** The notes after the last item's pass, from the notes before it. */
  lemma LastPass(items: seq<(string, seq<string>)>, hits: map<string, seq<NoteId>>, notes: map<NoteId, Note>)
    requires HitsReadable(notes, hits) && items != []
    ensures var n := |items| - 1;
            var prev := UpdateAll(items[..n], hits, notes);
            var ids := Found(hits, items[n].0);
            HitsReadable(prev.notes, hits)
            && UpdateAll(items, hits, notes).notes
               == (if ids == [] then prev.notes
                   else UpdateVocab(items[n].0, items[n].1, Pass(prev.notes, prev.updated, false), ids).notes)
  {
    var prev := UpdateAll(items[..|items| - 1], hits, notes);
    HitsReadableKept(notes, prev.notes, hits);
  }

  /**
   * The last item: when the search finds nothing the notes, the count and the
   * results stay; otherwise the count grows by that item's notes that lacked a
   * sentence, and one result says whether its pass changed a note.
   */
  lemma LastReport(items: seq<(string, seq<string>)>, hits: map<string, seq<NoteId>>, notes: map<NoteId, Note>)
    requires HitsReadable(notes, hits) && items != []
    ensures var n := |items| - 1;
            var prev := UpdateAll(items[..n], hits, notes);
            var r := UpdateAll(items, hits, notes);
            var ids := Found(hits, items[n].0);
            HitsReadable(prev.notes, hits) && Readable(prev.notes, ids)
            && (ids == [] ==> r.notes == prev.notes && r.updated == prev.updated && r.results == prev.results)
            && (ids != [] ==> r.updated == prev.updated + |Unfilled(prev.notes, ids, items[n].0, items[n].1)|
                              && r.results == prev.results + [(items[n].0, r.notes != prev.notes)])
  {
    var n := |items| - 1;
    var prev := UpdateAll(items[..n], hits, notes);
    HitsReadableKept(notes, prev.notes, hits);
    var ids := Found(hits, items[n].0);
    if ids != [] {
      var p := Pass(prev.notes, prev.updated, false);
      UpdateVocabCount(items[n].0, items[n].1, p, ids);
      UpdateVocabTouched(items[n].0, items[n].1, p, ids);
    }
  }

  /** The results of the first `m` items begin the results of all of them. */
  lemma {:induction false} ResultsGrow(items: seq<(string, seq<string>)>, hits: map<string, seq<NoteId>>, notes: map<NoteId, Note>, m: nat)
    requires HitsReadable(notes, hits) && m <= |items|
    ensures UpdateAll(items[..m], hits, notes).results <= UpdateAll(items, hits, notes).results
    decreases |items|
  {
    if m < |items| {
      var n := |items| - 1;
      assert items[..n][..m] == items[..m];
      ResultsGrow(items[..n], hits, notes, m);
    } else {
      assert items[..m] == items;
    }
  }

  /**
   * Each found item has its result, in item order, and the result says
   * updated exactly when that item's pass changed a note.
   */
  lemma ResultOfItem(items: seq<(string, seq<string>)>, hits: map<string, seq<NoteId>>, notes: map<NoteId, Note>, k: nat)
    requires HitsReadable(notes, hits) && k < |items| && Found(hits, items[k].0) != []
    ensures var before := UpdateAll(items[..k], hits, notes);
            var after := UpdateAll(items[..k + 1], hits, notes);
            var results := UpdateAll(items, hits, notes).results;
            |before.results| < |results| && results[|before.results|] == (items[k].0, after.notes != before.notes)
  {
    var front := items[..k + 1];
    assert front[..k] == items[..k] && front[k] == items[k];
    LastReport(front, hits, notes);
    ResultsGrow(items, hits, notes, k + 1);
  }

  /** The last item's pass keeps an earlier item filled. */
  lemma PassKeepsEarlier(items: seq<(string, seq<string>)>, hits: map<string, seq<NoteId>>, notes: map<NoteId, Note>, i: nat)
    requires HitsReadable(notes, hits) && i < |items| - 1 && items[i].0 != items[|items| - 1].0
    requires var prev := UpdateAll(items[..|items| - 1], hits, notes);
             HitsReadable(prev.notes, hits) && ItemFilled(prev.notes, hits, items[i])
    ensures var r := UpdateAll(items, hits, notes);
            HitsReadable(r.notes, hits) && ItemFilled(r.notes, hits, items[i])
  {
    var n := |items| - 1;
    var prev := UpdateAll(items[..n], hits, notes);
    var after := UpdateAll(items, hits, notes).notes;
    LastPass(items, hits, notes);
    if Found(hits, items[n].0) != [] {
      var p := Pass(prev.notes, prev.updated, false);
      OtherPassKeepsFilled(items[i], items[n].0, items[n].1, p, hits);
      assert after == UpdateVocab(items[n].0, items[n].1, p, Found(hits, items[n].0)).notes;
    } else {
      assert after == prev.notes;
    }
  }

  /** The last item's pass fills that item. */
  lemma PassFillsLast(items: seq<(string, seq<string>)>, hits: map<string, seq<NoteId>>, notes: map<NoteId, Note>)
    requires HitsReadable(notes, hits) && items != []
    ensures var r := UpdateAll(items, hits, notes);
            HitsReadable(r.notes, hits) && ItemFilled(r.notes, hits, items[|items| - 1])
  {
    var n := |items| - 1;
    var prev := UpdateAll(items[..n], hits, notes);
    LastPass(items, hits, notes);
    var ids := Found(hits, items[n].0);
    if ids != [] {
      UpdateVocabFills(items[n].0, items[n].1, Pass(prev.notes, prev.updated, false), ids);
    }
  }

  lemma DistinctFront(items: seq<(string, seq<string>)>, n: nat)
    requires DistinctItems(items) && n <= |items|
    ensures DistinctItems(items[..n])
  {
    forall i, j | 0 <= i < j < n ensures items[..n][i].0 != items[..n][j].0 {
      assert items[..n][i] == items[i] && items[..n][j] == items[j];
    }
  }

  /** The item at position `i` is filled after the run, given the run over the items before the last. */
  lemma FillsAt(items: seq<(string, seq<string>)>, hits: map<string, seq<NoteId>>, notes: map<NoteId, Note>, i: nat)
    requires HitsReadable(notes, hits) && i < |items|
    requires i < |items| - 1 ==> items[i].0 != items[|items| - 1].0
    requires var prev := UpdateAll(items[..|items| - 1], hits, notes);
             HitsReadable(prev.notes, hits) && (i < |items| - 1 ==> ItemFilled(prev.notes, hits, items[i]))
    ensures HitsReadable(UpdateAll(items, hits, notes).notes, hits)
    ensures ItemFilled(UpdateAll(items, hits, notes).notes, hits, items[i])
  {
    var r := UpdateAll(items, hits, notes);
    if i < |items| - 1 {
      PassKeepsEarlier(items, hits, notes, i);
      assert HitsReadable(r.notes, hits) && ItemFilled(r.notes, hits, items[i]);
    } else {
      PassFillsLast(items, hits, notes);
      assert HitsReadable(r.notes, hits) && ItemFilled(r.notes, hits, items[i]);
    }
  }

  /** After a run over distinct items, every matching found note contains all of its item's sentences. */
  lemma {:induction false} UpdateAllFills(items: seq<(string, seq<string>)>, hits: map<string, seq<NoteId>>, notes: map<NoteId, Note>)
    requires HitsReadable(notes, hits) && DistinctItems(items)
    ensures var r := UpdateAll(items, hits, notes);
            HitsReadable(r.notes, hits) && forall i :: 0 <= i < |items| ==> ItemFilled(r.notes, hits, items[i])
    decreases |items|
  {
    var r := UpdateAll(items, hits, notes);
    HitsReadableKept(notes, r.notes, hits);
    if items != [] {
      var n := |items| - 1;
      DistinctFront(items, n);
      UpdateAllFills(items[..n], hits, notes);
      var prev := UpdateAll(items[..n], hits, notes);
      forall i | 0 <= i < |items| ensures ItemFilled(r.notes, hits, items[i]) {
        if i < n {
          assert ItemFilled(prev.notes, hits, items[..n][i]);
          assert items[..n][i] == items[i];
          assert items[i].0 != items[n].0;
        }
        FillsAt(items, hits, notes, i);
      }
    }
  }

  /** When every item is already filled, a run changes no note and reports no update. */
  lemma {:induction false} UpdateAllStable(items: seq<(string, seq<string>)>, hits: map<string, seq<NoteId>>, notes: map<NoteId, Note>)
    requires HitsReadable(notes, hits)
    requires forall i :: 0 <= i < |items| ==> ItemFilled(notes, hits, items[i])
    ensures var r := UpdateAll(items, hits, notes);
            r.notes == notes && r.updated == 0 && forall j :: 0 <= j < |r.results| ==> !r.results[j].1
    decreases |items|
  {
    if items != [] {
      var n := |items| - 1;
      assert forall i :: 0 <= i < n ==> items[..n][i] == items[i];
      UpdateAllStable(items[..n], hits, notes);
      var prev := UpdateAll(items[..n], hits, notes);
      var ids := Found(hits, items[n].0);
      if ids != [] {
        assert ItemFilled(notes, hits, items[n]);
        UpdateVocabStable(items[n].0, items[n].1, Pass(notes, 0, false), ids);
      }
    }
  }

  /** Running the update a second time with the same items changes nothing and reports no update. */
  lemma UpdateTwiceChangesNothing(col: Collection, items: seq<(string, seq<string>)>, deck: string,
                                  hits: map<string, seq<NoteId>>)
    requires HitsReadable(col.notes, hits) && DistinctItems(items)
    requires JapaneseNoteType in col.noteTypes && deck in col.decks
    ensures var first := UpdateNotesWithSentences(col, items, deck, hits).value;
            HitsReadable(first.notes, hits)
            && var second := UpdateNotesWithSentences(col.(notes := first.notes), items, deck, hits).value;
               second.notes == first.notes && second.updated == 0
  {
    var first := UpdateAll(items, hits, col.notes);
    UpdateAllFills(items, hits, col.notes);
    UpdateAllStable(items, hits, first.notes);
  }
}

=== FILE: vocab_csv.dfy ===
/**
 * The per-row work of `read_vocab_csv`: a row arrives already parsed into a
 * map from column header to cell text, and becomes an entry with the three
 * note fields, the note tags and the expression used as the reconciliation key.
 */
module VocabCsv {
  import opened PyStr
  import opened JapaneseUtils

  /** A parsed CSV row: column header to cell text. */
  type Row = map<string, string>

  /** `row.get(name, '')`: a missing column reads as the empty string. */
  function Cell(row: Row, name: string): (cell: string)
    ensures name !in row ==> cell == ""
    ensures name in row ==> cell == row[name]
  {
    if name in row then row[name] else ""
  }

  /** A processed vocabulary row: `fields` is `[expression, meaning, reading with furigana]`. */
  datatype Entry = Entry(fields: seq<string>, tags: seq<string>, expression: string)

  /** The shape every processed row has: three fields, the first being the key. */
  predicate Shaped(e: Entry)
  {
    |e.fields| == 3 && e.fields[0] == e.expression
  }

  function StripEach(xs: seq<string>): (r: seq<string>)
    ensures |r| == |xs|
    ensures forall i :: 0 <= i < |xs| ==> r[i] == Strip(xs[i])
  {
    seq(|xs|, i requires 0 <= i < |xs| => Strip(xs[i]))
  }

  /** Stripping cannot introduce a character: a stripped piece is a slice of the original. */
  lemma StripKeepsOut(s: string, c: char)
    requires c !in s
    ensures c !in Strip(s)
  {
    StripDecomposes(s);
    var i := LeadingSpace(s);
    forall k | 0 <= k < |Strip(s)| ensures Strip(s)[k] != c {
      assert Strip(s)[k] == s[i + k];
    }
  }

  /**
   * The tags a `Tags` cell contributes: nothing when the stripped cell is
   * empty, otherwise its `;`-separated pieces, each stripped.
   */
  function CsvTags(cell: string): (r: seq<string>)
    ensures Strip(cell) == "" <==> r == []
  {
    var t := Strip(cell);
    if t == "" then [] else StripEach(Split(t, ';'))
  }

  /** Every CSV tag is trimmed and free of `;`, and there is one per `;`-separated piece. */
  lemma CsvTagsClean(cell: string)
    ensures Strip(cell) != "" ==> |CsvTags(cell)| == |Split(Strip(cell), ';')|
    ensures forall i :: 0 <= i < |CsvTags(cell)| ==> Trimmed(CsvTags(cell)[i]) && ';' !in CsvTags(cell)[i]
  {
    var t := Strip(cell);
    if t != "" {
      var pieces := Split(t, ';');
      SplitPiecesOmitSep(t, ';');
      forall i | 0 <= i < |pieces| ensures Trimmed(Strip(pieces[i])) && ';' !in Strip(pieces[i]) {
        StripIsTrimmed(pieces[i]);
        StripKeepsOut(pieces[i], ';');
      }
    }
  }

  /**
   * The entry built from the four cells of a row: the expression, meaning
   * and reading stripped, the reading annotated with furigana over the
   * expression, and the tags of the `Tags` cell followed by the extra tags.
   */
  function BuildEntry(expressionCell: string, meaningCell: string, readingCell: string, tagsCell: string,
                      additional: seq<string>): (e: Entry)
    ensures Shaped(e)
    ensures e.expression == Strip(expressionCell)
    ensures e.tags == CsvTags(tagsCell) + additional
  {
    var expression := Strip(expressionCell);
    Entry([expression, Strip(meaningCell), AddFurigana(expression, Strip(readingCell))],
          CsvTags(tagsCell) + additional, expression)
  }

  /** The meaning is the stripped meaning cell; the reading carries the furigana of the stripped reading cell. */
  lemma BuildEntryFields(expressionCell: string, meaningCell: string, readingCell: string, tagsCell: string,
                         additional: seq<string>)
    ensures BuildEntry(expressionCell, meaningCell, readingCell, tagsCell, additional).fields
         == [Strip(expressionCell), Strip(meaningCell), AddFurigana(Strip(expressionCell), Strip(readingCell))]
  {
  }

  /** The extra tags close the tag list, unchanged and in order, after the row's own tags; a blank `Tags` cell leaves only them. */
  lemma BuildEntryTags(expressionCell: string, meaningCell: string, readingCell: string, tagsCell: string,
                       additional: seq<string>)
    ensures var tags := BuildEntry(expressionCell, meaningCell, readingCell, tagsCell, additional).tags;
            var own := CsvTags(tagsCell);
            tags[..|own|] == own && tags[|own|..] == additional
            && (Strip(tagsCell) == "" ==> tags == additional)
  {
    var own := CsvTags(tagsCell);
    assert (own + additional)[..|own|] == own;
    assert (own + additional)[|own|..] == additional;
  }

  /** One row of `read_vocab_csv`; a missing column reads as an empty cell. */
  function ProcessRow(row: Row, additional: seq<string>): (e: Entry)
    ensures Shaped(e)
    ensures e.expression == Strip(Cell(row, "Expression"))
    ensures e.tags == CsvTags(Cell(row, "Tags")) + additional
  {
    BuildEntry(Cell(row, "Expression"), Cell(row, "Meaning"), Cell(row, "Reading"), Cell(row, "Tags"), additional)
  }

  /** `read_vocab_csv` over already-parsed rows: one entry per row, in row order. */
  function ReadVocab(rows: seq<Row>, additional: seq<string>): (entries: seq<Entry>)
    ensures |entries| == |rows|
    ensures forall i :: 0 <= i < |rows| ==> entries[i] == ProcessRow(rows[i], additional)
    ensures forall i :: 0 <= i < |rows| ==> Shaped(entries[i])
  {
    seq(|rows|, i requires 0 <= i < |rows| => ProcessRow(rows[i], additional))
  }

  // ---------------------------------------------------------------------
  // Properties

  lemma {:induction false} JoinTrimmed(ts: seq<string>)
    requires |ts| >= 1
    requires forall i :: 0 <= i < |ts| ==> Trimmed(ts[i])
    ensures Trimmed(Join(";", ts))
  {
    if |ts| > 1 {
      JoinTrimmed(ts[1..]);
      var rest := Join(";", ts[1..]);
      var j := ts[0] + ";" + rest;
      assert j[|ts[0]|] == ';';
      if ts[0] == [] {
        assert j[0] == ';';
      } else {
        assert j[0] == ts[0][0];
      }
      if rest == [] {
        assert j[|j| - 1] == ';';
      } else {
        assert j[|j| - 1] == rest[|rest| - 1];
      }
    }
  }

  /**
   * Tags written back as a `;`-joined cell read back as the same tags,
   * provided each tag is already trimmed and free of `;`.
   */
  lemma {:induction false} CsvTagsRoundTrip(ts: seq<string>)
    requires |ts| >= 1
    requires forall i :: 0 <= i < |ts| ==> Trimmed(ts[i]) && ';' !in ts[i]
    requires Join(";", ts) != ""
    ensures CsvTags(Join(";", ts)) == ts
  {
    var j := Join(";", ts);
    assert Strip(j) == j by {
      JoinTrimmed(ts);
      StripKeepsTrimmed(j);
    }
    StripEachSplitJoin(ts, ';');
  }

  /** Splitting a joined list of trimmed, separator-free pieces and stripping each gives the pieces back. */
  lemma StripEachSplitJoin(ts: seq<string>, sep: char)
    requires |ts| >= 1
    requires forall i :: 0 <= i < |ts| ==> Trimmed(ts[i]) && sep !in ts[i]
    ensures StripEach(Split(Join([sep], ts), sep)) == ts
  {
    SplitJoin(ts, sep);
    StripEachTrimmed(ts);
  }

  /** Stripping a list of trimmed pieces leaves it as it is. */
  lemma StripEachTrimmed(ts: seq<string>)
    requires forall i :: 0 <= i < |ts| ==> Trimmed(ts[i])
    ensures StripEach(ts) == ts
  {
    forall i | 0 <= i < |ts| ensures Strip(ts[i]) == ts[i] {
      StripKeepsTrimmed(ts[i]);
    }
  }

  /** The tags jlpt and n3 join to the cell `jlpt;n3`. */
  lemma JoinJlptN3()
    ensures Join(";", ["jlpt", "n3"]) == "jlpt;n3"
  {
    var ts := ["jlpt", "n3"];
    assert ts[1..] == ["n3"];
    assert Join(";", ts) == "jlpt" + ";" + "n3";
  }

  /** The cell `jlpt;n3` reads as the tags jlpt and n3. */
  lemma CsvTagsJlptN3()
    ensures CsvTags("jlpt;n3") == ["jlpt", "n3"]
  {
    var ts := ["jlpt", "n3"];
    JoinJlptN3();
    assert Trimmed(ts[0]) && ';' !in ts[0];
    assert Trimmed(ts[1]) && ';' !in ts[1];
    CsvTagsRoundTrip(ts);
  }

  /** A `Tags` cell `jlpt;n3` with the extra tag `batch1` tags the note jlpt, n3, batch1. */
  lemma ExampleTags(expressionCell: string, meaningCell: string, readingCell: string)
    ensures BuildEntry(expressionCell, meaningCell, readingCell, "jlpt;n3", ["batch1"]).tags == ["jlpt", "n3", "batch1"]
  {
    CsvTagsJlptN3();
    assert ["jlpt", "n3"] + ["batch1"] == ["jlpt", "n3", "batch1"];
  }

  /** An empty row gives three empty fields and only the extra tags. */
  lemma EmptyRow(additional: seq<string>)
    ensures ProcessRow(map[], additional) == Entry(["", "", ""], additional, "")
  {
    StripKeepsTrimmed("");
  }
}

=== FILE: wrappers.dfy ===
/** Failure-carrying return types used in place of the server's error strings and exceptions. */
module Wrappers {

  datatype Option<+T> = None | Some(value: T)

  datatype Result<+R, +E> = Success(value: R) | Failure(error: E)
}
